=== FILE: README.md ===
# Eventify session lifecycle, connection-failure classifier and concurrency-stamp rewrite

This Dafny project models four parts of the Eventify boilerplate.

- **Sign-in and refresh on the server (`IdentityController`).** It is written as a sequential state machine over a user table and the session tables.
  - Each request is a pure function from a `Store` to a `Reply`: the result, plus the state the database holds afterwards. Failures that still persist changes therefore stay visible. Examples are a refresh that deletes a reused session, or an invalid elevated-access token that counts a failed access.
  - The model covers:
    - the session stamp, which is the whole Unix seconds of `RenewedOn ?? StartedOn`;
    - the privileged-session rule with its `-1` "unlimited" cap;
    - the fail-fast refresh pipeline;
    - the resend throttles on the nullable "requested-on" instants;
    - the routing of sign-in outcomes, including the order of the two-factor fallback;
    - the channels a code is sent over.
- **The `UserSession` entity and its push-subscription relation.** The relation has three constraints:
  - a foreign key;
  - a filtered unique index on the non-null `UserSessionId`;
  - `DeleteBehavior.SetNull`.
- **The client's `ExceptionDelegatingHandler`.** It covers the recursive `IsServerConnectionException` over exception trees, how a response becomes an exception, and the `IS_ONLINE_CHANGED` flag.
- **`AppDbContext`.** It covers:
  - the rewrite of original concurrency stamps before every save;
  - the translation of a concurrency failure into a conflict;
  - the row-version configuration;
  - the `ProductShortId` sequence.

Modules:

| module | file | contents |
|---|---|---|
| `Wrappers` | `wrappers.dfy` | `Option` and `Result` |
| `Time` | `time.dfy` | `DateTimeOffset` ticks and `ToUnixTimeSeconds` |
| `Sessions` | `user_session.dfy` | the session and subscription tables and their constraints |
| `Identity` | `identity.dfy` | the controller operations |
| `IdentityProperties` | `identity_properties.dfy` | the store invariant, sequential runs, stamp and reuse, routing, throttling |
| `ExceptionHandling` | `exception_handler.dfy` | the client handler |
| `AppData` | `app_db_context.dfy` | the database context |

Collaborators appear as inputs:

| collaborator | how it appears |
|---|---|
| identity framework (password, OTP and two-factor sign-in results) | `SignInOutcome` values |
| security-stamp validator, token verifiers | boolean `RefreshOracles` |
| refresh-token protector | an `Option<RefreshTicket>`, with `None` for an undecodable token |
| user-confirmation policy | the `confirmed` field |
| clock | a `now` parameter in ticks (100 ns) |
| `Guid.NewGuid()` | a `newId` parameter that is required to be unused |
| inner HTTP handler | a response or an exception |
| database, beyond the concurrency check | an optional failure |

Two points follow the code as written; the second rests on an assumption:

- **Throttle payload.** `TooManyRequests` carries `resendDelay`, which is `(now - requestedOn) - lifetime`. Within the lifetime that value is negative: minus the remaining wait.
- **Reuse is unauthorized.** The declaration of `ReusedRefreshTokenException` is not part of this model. It is assumed to derive from `UnauthorizedException`. Only under that assumption does the `catch (UnauthorizedException)` clause delete the session on reuse.

## Model

| member | source | states |
|---|---|---|
| Time.SameUnixSecondsIffSameSecond | src/Server/Eventify.Server.Api/Controllers/Identity/IdentityController.cs:222-224 | Two instants have equal `ToUnixTimeSeconds` exactly when they fall in the same whole second, so stamp comparison has one-second granularity. |
| Sessions.Stamp | src/Server/Eventify.Server.Api/Controllers/Identity/IdentityController.cs:222-223 | The stamp is the Unix second that `RenewedOn ?? StartedOn` falls in: that instant lies within the stamp's whole second. |
| Sessions.RenewalMovesStamp | src/Server/Eventify.Server.Domain/Entities/Identity/UserSession.cs:25-27 | A never-renewed session takes its stamp from `StartedOn`. A renewal at `now` makes the stamp `now`'s second. The stamp changes iff `now` is in a different second from the last issue. |
| Sessions.DeleteSession | src/Server/Eventify.Server.Domain/Entities/Identity/UserSession.cs:41-45 | Deleting a session removes only that row. A subscription that referenced it survives with a null `UserSessionId` and is otherwise unchanged. All other subscriptions are unchanged. |
| Sessions.DeleteSessionPreservesWellFormed | src/Server/Eventify.Server.Domain/Entities/Identity/UserSession.cs:41-50 | After a delete, the foreign key, the key/id agreement and the unique index still hold. |
| Sessions.DeleteSessionDetachesAtMostOne | src/Server/Eventify.Server.Domain/Entities/Identity/UserSession.cs:47-50 | Under the filtered unique index, at most one subscription references a session. |
| Sessions.SaveSubscription | src/Server/Eventify.Server.Domain/Entities/Identity/UserSession.cs:41-50 | The database refuses a subscription write iff it names a missing session, or a session another subscription already holds. An accepted write changes exactly that row. |
| Sessions.SaveSubscriptionPreservesWellFormed | src/Server/Eventify.Server.Domain/Entities/Identity/UserSession.cs:41-50 | Every accepted subscription write keeps the relational constraints. |
| Sessions.PutSession | src/Server/Eventify.Server.Api/Controllers/Identity/IdentityController.cs:142 | Storing a session sets that key and leaves the other sessions and all subscriptions untouched. |
| Sessions.PutSessionPreservesWellFormed | src/Server/Eventify.Server.Domain/Entities/Identity/UserSession.cs:29-50 | Storing a session under its own id keeps the relational constraints. |
| Sessions.PushRecipients | src/Server/Eventify.Server.Api/Controllers/Identity/IdentityController.cs:323 | The push filter reaches a subscription iff its session is stored and belongs to the user. |
| Sessions.DeletedSessionGetsNoPush | src/Server/Eventify.Server.Domain/Entities/Identity/UserSession.cs:41-45 | Once its session is deleted, a subscription row survives but no longer receives the user's pushes. |
| Identity.IsUserSessionPrivileged | src/Server/Eventify.Server.Api/Controllers/Identity/IdentityController.cs:192-199 | A session is privileged under an unlimited cap (-1), or when it already is. Otherwise it is privileged iff the user's stored privileged count is below the cap. |
| Identity.CreateUserSession | src/Server/Eventify.Server.Api/Controllers/Identity/IdentityController.cs:170-187 | A new session belongs to the user, starts at `now`, is never renewed, and has `now`'s second as its stamp. It is privileged iff the cap is -1 or the stored count is below the cap. |
| Identity.SessionClaims | src/Server/Eventify.Server.Api/Controllers/Identity/IdentityController.cs:95-100 | The claims hold the elevated-session claim iff elevated and the privileged claim iff privileged. They name the session, and only that session. Every stamp claim holds the Unix seconds of the given instant. |
| Identity.SessionClaimsCarryStamp | src/Server/Eventify.Server.Api/Controllers/Identity/IdentityController.cs:89-100 | Every claim set the controller builds holds exactly one stamp claim, equal to the Unix seconds of the instant it was built from. |
| Identity.Throttle | src/Server/Eventify.Server.Api/Controllers/Identity/IdentityController.cs:295-298 | A resend is refused iff a request time is recorded and less than a lifetime has passed since it. A null time never throttles. The refusal carries minus the remaining wait. |
| Identity.CheckTwoFactorCode | src/Server/Eventify.Server.Api/Controllers/Identity/IdentityController.cs:150-165 | The providers are tried as a prefix of recovery code, phone token, authenticator, stopping at the first success. Every earlier provider failed. The result is success iff some provider accepts the code. |
| Identity.SignIn | src/Server/Eventify.Server.Api/Controllers/Identity/IdentityController.cs:80-148 | Only a signed-in result changes the store. It adds exactly the new session id, owned by the resolved user, started at `now` and not renewed. The tokens name that user and session. |
| Identity.CheckRefreshTicketAsWritten | src/Server/Eventify.Server.Api/Controllers/Identity/IdentityController.cs:211-213 | As written, an undecodable token dereferences null. A decoded ticket passes iff it is authenticated and not expired. |
| Identity.CheckRefreshTicket | src/Server/Eventify.Server.Api/Controllers/Identity/IdentityController.cs:211-213 | Corrected: a ticket passes iff it is present, authenticated and unexpired. Every failure is unauthorized. |
| Identity.RefreshSteps | src/Server/Eventify.Server.Api/Controllers/Identity/IdentityController.cs:206-269 | A failed ticket check ends the attempt with that error and nothing loaded or pending. After a passed check, plain unauthorized failures happen before any session is loaded and leave nothing pending. Reuse is detected only after loading. For a passed ticket naming a stored session of a known user, with a current security stamp and one stamp claim, the outcome is reuse iff the claimed stamp differs from the session's. Success renews the loaded session at `now` in the pending state. |
| Identity.Conclude | src/Server/Eventify.Server.Api/Controllers/Identity/IdentityController.cs:271-279 | An unauthorized failure raised after a session was loaded deletes that session from the pending state. Any other outcome saves the pending state as it is. The result is passed on unchanged. |
| Identity.Refresh | src/Server/Eventify.Server.Api/Controllers/Identity/IdentityController.cs:202-280 | As written, an undecodable token fails with `NullReference` and changes nothing. Success renews the session at `now` without demoting it. Reuse deletes exactly the loaded session, with SetNull on its subscription. A plain unauthorized failure changes nothing. |
| Identity.RefreshCorrected | src/Server/Eventify.Server.Api/Controllers/Identity/IdentityController.cs:211-213 | Corrected: an undecodable token is unauthorized and changes nothing. Every decodable token is handled exactly as `Refresh` handles it. |
| Identity.GenerateAutomaticSignInLink | src/Server/Eventify.Server.Api/Controllers/Identity/IdentityController.cs:392-399 | Issuing the link records `now` as `OtpRequestedOn` and changes nothing else on the user. |
| Identity.OtpChannels | src/Server/Eventify.Server.Api/Controllers/Identity/IdentityController.cs:306-323 | An OTP goes by e-mail iff the e-mail is confirmed, by SMS iff the phone is confirmed, and always over SignalR and push. |
| Identity.SendOtp | src/Server/Eventify.Server.Api/Controllers/Identity/IdentityController.cs:286-326 | Every refusal leaves the store unchanged. Success needs a known user and sets only that user's `OtpRequestedOn` to `now`. |
| Identity.TwoFactorChannels | src/Server/Eventify.Server.Api/Controllers/Identity/IdentityController.cs:360-377 | A two-factor token never goes over the first step's own channel. E-mail and SMS also need confirmation. SignalR and push go together. |
| Identity.SendTwoFactorToken | src/Server/Eventify.Server.Api/Controllers/Identity/IdentityController.cs:329-380 | Success needs a known two-factor user whose first step answered RequiresTwoFactor. It sets only that user's `TwoFactorTokenRequestedOn`. Every refusal changes nothing. |
| IdentityProperties.PutKeepsCap | src/Server/Eventify.Server.Api/Controllers/Identity/IdentityController.cs:192-199 | Storing a session that is privileged only by the rule keeps every user's privileged count within the cap. |
| IdentityProperties.SignInStoresCreatedSession | src/Server/Eventify.Server.Api/Controllers/Identity/IdentityController.cs:133-147 | A successful sign-in stores exactly the created session and clears `TwoFactorTokenRequestedOn`. An OTP sign-in also clears `OtpRequestedOn` and the failed count. Other users are unchanged. |
| IdentityProperties.SignInPreservesValid | src/Server/Eventify.Server.Api/Controllers/Identity/IdentityController.cs:184-198 | Sign-in keeps the store invariant, including privileged count ≤ cap, because the new session is counted before it is stored. |
| IdentityProperties.RefreshSuccessStore | src/Server/Eventify.Server.Api/Controllers/Identity/IdentityController.cs:252-265 | A successful refresh had a present ticket, a current security stamp and a matching stamp. It stores the renewed session with the re-decided privilege and issues claims for it. |
| IdentityProperties.RefreshStampMismatchIsReuse | src/Server/Eventify.Server.Api/Controllers/Identity/IdentityController.cs:222-226 | For a valid ticket of a known user and a stored session with one stamp claim, a refresh fails as reuse iff the claimed stamp differs from the session's stamp. A mismatch deletes the session, with SetNull on its subscription, and changes no user. |
| IdentityProperties.RefreshFailureStore | src/Server/Eventify.Server.Api/Controllers/Identity/IdentityController.cs:271-279 | A failed refresh deletes the session iff the failure is unauthorized after loading it. Otherwise the sessions are unchanged. |
| IdentityProperties.RefreshPreservesValid | src/Server/Eventify.Server.Api/Controllers/Identity/IdentityController.cs:252-279 | Refresh, on every path, keeps the store invariant. |
| IdentityProperties.SendOtpPreservesValid | src/Server/Eventify.Server.Api/Controllers/Identity/IdentityController.cs:286-326 | Sending an OTP keeps the store invariant. |
| IdentityProperties.SendTwoFactorTokenPreservesValid | src/Server/Eventify.Server.Api/Controllers/Identity/IdentityController.cs:329-380 | Sending a two-factor token keeps the store invariant. |
| IdentityProperties.ApplyPreservesValid | src/Server/Eventify.Server.Api/Controllers/Identity/IdentityController.cs:192-199 | Any single request keeps the store invariant. |
| IdentityProperties.RunPreservesValid | src/Server/Eventify.Server.Api/Controllers/Identity/IdentityController.cs:192-199 | In any sequential run under a fixed cap, no user exceeds the cap and the relational constraints hold. |
| IdentityProperties.RefreshNeverDemotes | src/Server/Eventify.Server.Api/Controllers/Identity/IdentityController.cs:261 | A refresh never turns a privileged session back into a standard one. |
| IdentityProperties.ApplyNeverDemotes | src/Server/Eventify.Server.Api/Controllers/Identity/IdentityController.cs:196-197 | No request demotes a surviving privileged session. |
| IdentityProperties.SignInTokensCarryStoredStamp | src/Server/Eventify.Server.Api/Controllers/Identity/IdentityController.cs:95-100 | The tokens of a sign-in carry exactly the stored session's stamp, which is its start second. They carry the privileged claim iff the session is privileged. |
| IdentityProperties.RefreshTokensCarryStoredStamp | src/Server/Eventify.Server.Api/Controllers/Identity/IdentityController.cs:252-264 | The tokens of a refresh carry exactly the renewed session's stamp, which is the renewal second. |
| IdentityProperties.SignInTicketIsAccepted | src/Server/Eventify.Server.Api/Controllers/Identity/IdentityController.cs:222-224 | The refresh token issued at sign-in is accepted by the next refresh while it is unexpired. |
| IdentityProperties.ReplayAfterRotationIsDetected | src/Server/Eventify.Server.Api/Controllers/Identity/IdentityController.cs:222-233 | Replaying a token after it was rotated in a later second fails as reuse and removes the session. |
| IdentityProperties.SameSecondReplayIsNotDetected | src/Server/Eventify.Server.Api/Controllers/Identity/IdentityController.cs:222-224 | A token rotated within the same second as its predecessor leaves the predecessor redeemable. |
| IdentityProperties.RenewedTicketIsAccepted | src/Server/Eventify.Server.Api/Controllers/Identity/IdentityController.cs:252-259 | The refresh token a refresh hands out is accepted by the next refresh while it is unexpired. |
| IdentityProperties.RefreshUnauthorizedCases | src/Server/Eventify.Server.Api/Controllers/Identity/IdentityController.cs:211-220 | An undecodable token fails with `NullReference` and changes nothing. A decoded but unauthenticated or expired ticket, a stale security stamp or a missing session is unauthorized and changes nothing. Reuse leaves no subscription on the session. |
| IdentityProperties.RefreshElevatedAccess | src/Server/Eventify.Server.Api/Controllers/Identity/IdentityController.cs:235-250 | An invalid elevated-access token counts one failed access and leaves the sessions alone. A valid one is consumed, resets the failed count and elevates the tokens. |
| IdentityProperties.SignInRouting | src/Server/Eventify.Server.Api/Controllers/Identity/IdentityController.cs:108-131 | The routing is: unconfirmed, then locked out with `LockoutEnd - now`, then the two-factor challenge, then any failure is unauthorized. A two-factor code succeeds iff some provider accepts it. |
| IdentityProperties.SignInUnknownUser | src/Server/Eventify.Server.Api/Controllers/Identity/IdentityController.cs:85 | An identifier that resolves to no user is unauthorized and changes nothing. |
| IdentityProperties.OtpResendWithinLifetimeRefused | src/Server/Eventify.Server.Api/Controllers/Identity/IdentityController.cs:295-298 | A second OTP request within the lifetime is refused with minus the remaining wait, and changes nothing. |
| IdentityProperties.OtpResendAfterLifetimeAllowed | src/Server/Eventify.Server.Api/Controllers/Identity/IdentityController.cs:295-298 | Once the lifetime has passed, the OTP may be requested again. |
| IdentityProperties.TwoFactorResendWithinLifetimeRefused | src/Server/Eventify.Server.Api/Controllers/Identity/IdentityController.cs:346-351 | A second two-factor token request within the lifetime is refused with minus the remaining wait. |
| IdentityProperties.SignInResetsThrottles | src/Server/Eventify.Server.Api/Controllers/Identity/IdentityController.cs:133-143 | After a successful sign-in the consumed codes no longer throttle a new request. |
| IdentityProperties.TwoFactorChannelsAfterPassword | src/Server/Eventify.Server.Api/Controllers/Identity/IdentityController.cs:360-377 | After a password step a two-factor token uses the OTP channels. After a code step it uses those channels minus the code's own channel. |
| IdentityProperties.UndecodableRefreshEndpoint | src/Server/Eventify.Server.Api/Controllers/Identity/IdentityController.cs:211-212 | For an undecodable token, `Refresh` as written fails with a null dereference that is not unauthorized. `RefreshCorrected` answers unauthorized. Neither changes the store. |
| IdentityProperties.RefreshCorrectedPreservesValid | src/Server/Eventify.Server.Api/Controllers/Identity/IdentityController.cs:202-280 | The corrected refresh keeps the store invariant on every path. |
| IdentityProperties.UndecodableRefreshToken | src/Server/Eventify.Server.Api/Controllers/Identity/IdentityController.cs:211-212 | As written, an undecodable refresh token raises a null dereference, which is not unauthorized. The corrected check answers unauthorized. The two agree on every decodable token. |
| ExceptionHandling.IsServerConnectionException | src/Client/Eventify.Client.Core/Services/HttpMessageHandlers/ExceptionDelegatingHandler.cs:89-97 | A direct connection failure qualifies. Anything else qualifies only through an inner exception. An exception of another type with no inner exception never qualifies. |
| ExceptionHandling.ClassificationMatchesReference | src/Client/Eventify.Client.Core/Services/HttpMessageHandlers/ExceptionDelegatingHandler.cs:89-97 | An exception is a server-connection exception iff some exception in its tree (inner exceptions and aggregate children) is a connection failure by itself. |
| ExceptionHandling.ClassificationFacts | src/Client/Eventify.Client.Core/Services/HttpMessageHandlers/ExceptionDelegatingHandler.cs:91-96 | See "Classification facts" below this table. |
| ExceptionHandling.StartsWithIgnoresCase | src/Client/Eventify.Client.Core/Services/HttpMessageHandlers/ExceptionDelegatingHandler.cs:17 | Upper-casing the request URI does not change whether it is internal. Any URI that extends the server address is internal. |
| ExceptionHandling.RebuiltException | src/Client/Eventify.Client.Core/Services/HttpMessageHandlers/ExceptionDelegatingHandler.cs:42-57 | The rebuilt exception has the problem's type if that type is known, else `UnknownException`. Its `Data` holds exactly the problem's extensions. |
| ExceptionHandling.ResponseException | src/Client/Eventify.Client.Core/Services/HttpMessageHandlers/ExceptionDelegatingHandler.cs:38-69 | A response raises an exception iff its status is not a success. The exception is a named one, never a connection failure, or a bare `HttpRequestException` with the response status. That status is then neither 401 nor 403. |
| ExceptionHandling.SendAsync | src/Client/Eventify.Client.Core/Services/HttpMessageHandlers/ExceptionDelegatingHandler.cs:12-87 | The online flag is published iff the request is internal. Its value is true iff a response arrived and no connection loss was raised. A passed-through response is a success response. |
| ExceptionHandling.SendAsyncCases | src/Client/Eventify.Client.Core/Services/HttpMessageHandlers/ExceptionDelegatingHandler.cs:36-86 | See "SendAsync cases" below this table. |
| AppData.ReplaceOriginalConcurrencyStamp | src/Server/Eventify.Server.Api/Data/AppDbContext.cs:70-82 | Only Modified or Deleted entries with a `byte[]` current stamp change. Their original values become the old ones with `ConcurrencyStamp` set to the current stamp, and nothing else. Key, state, current values and tokens are never touched. The loop computes the rewrite of every entry. |
| AppData.RewriteIdempotent | src/Server/Eventify.Server.Api/Data/AppDbContext.cs:80 | Rewriting twice equals rewriting once. Afterwards original and current stamps agree. |
| AppData.SaveChanges | src/Server/Eventify.Server.Api/Data/AppDbContext.cs:39-65 | A database failure propagates unchanged. A save can succeed only without one, reporting at most one write per entry. |
| AppData.RewriteChecksSentValues | src/Server/Eventify.Server.Api/Data/AppDbContext.cs:74-80 | After the rewrite, an update or delete passes the database's check iff its row is still there and every concurrency token holds the value sent for it. For a `byte[]` stamp that is the current stamp; for any other token it is the original value. |
| AppData.SaveConflictIffStale | src/Server/Eventify.Server.Api/Data/AppDbContext.cs:39-65 | Without a database failure, a save is a conflict iff some updated or deleted entry has lost its row or has a token whose stored value differs from the one sent. It succeeds iff no entry does. |
| AppData.StaleClientStampNeedsRewrite | src/Server/Eventify.Server.Api/Data/AppDbContext.cs:67-82 | Without the rewrite, a stale stamp from the client goes through unnoticed. With it, the save is a conflict. |
| AppData.ConcurrencyTokens | src/Server/Eventify.Server.Api/Data/AppDbContext.cs:117-131 | `ConfigureConcurrencyStamp` makes at most one property of an entity type a row-version token: `ConcurrencyStamp`, exactly when the type has it and it is typed `byte[]`. What that decides for a save is stated by its partner `AppData.ConfiguredTokensDecideConflicts`. |
| AppData.ConfiguredTokensDecideConflicts | src/Server/Eventify.Server.Api/Data/AppDbContext.cs:117-128 | For entity types whose tokens are exactly those `ConfigureConcurrencyStamp` sets, a column it does not make a token never causes a conflict, whatever the database holds there. A stale `byte[]` stamp sent back on an update or delete of a type whose `ConcurrencyStamp` is `byte[]` always causes one. |
| AppData.NextShortId | src/Server/Eventify.Server.Api/Data/AppDbContext.cs:28-30 | The first value is 10 000 and each later value is the previous plus one. Drawing fails iff the previous value is at the `int` maximum. |
| AppData.Draw | src/Server/Eventify.Server.Api/Data/AppDbContext.cs:28-30 | A successful run of `n` draws yields `n` values, starting at 10 000, each one more than the previous, none beyond the `int` maximum. |
| AppData.DrawValues | src/Server/Eventify.Server.Api/Data/AppDbContext.cs:28-30 | The k-th short id drawn is 10 000 + k (0-based) while the `int` range lasts. After that, drawing fails. |

Classification facts (`ExceptionHandling.ClassificationFacts`):

- A timeout always qualifies.
- A web exception alone qualifies iff its status is ConnectFailure.
- A socket exception qualifies iff its code is HostNotFound, HostUnreachable, HostDown or TimedOut.
- An HTTP request exception alone qualifies iff its status is 502, 504, 503 or 408.
- Wrapping a qualifying exception, or putting it in an aggregate, qualifies.

SendAsync cases (`ExceptionHandling.SendAsyncCases`):

The online flag is published only for internal requests; "reported online" and "reported offline" below are about those.

- A success response passes through and the server is reported online.
- An internal error response with a JSON body becomes the rebuilt exception, and the server is reported online.
- Any other response with status 401 raises `UnauthorizedException`, and 403 raises `ForbiddenException`. This includes internal responses without a JSON body. The server is reported online.
- Any other response with status 502, 503, 504 or 408 becomes a `ServerConnectionException` around the `HttpRequestException`, and the server is reported offline. An internal JSON error with one of these statuses is rebuilt instead, as above.
- A transport failure that is an `HttpRequestException` or a server-connection exception is wrapped as a `ServerConnectionException`, and the server is reported offline.
- Any other exception from the inner handler propagates unchanged, and the server is reported offline.

## Left out

- **Cryptography and token handling.** The refresh-token protector, token generation and verification, password checks and security-stamp validation are all collaborators. Their verdicts are inputs.
- **Lockout bookkeeping.** `PasswordSignInAsync(lockoutOnFailure: true)` (IdentityController.cs:106 and 341) and the three `TwoFactor*SignInAsync` calls (152-161) count failed attempts inside the identity framework, and a successful password sign-in resets that count. The model does neither: `Identity.SignIn` leaves the store unchanged on every failure and does not reset the count on a successful password sign-in. The only place the model increments the failed count is `Refresh` on an invalid elevated-access token (IdentityController.cs:240-242). When a lockout begins is not modelled.
- **`FindUserAsync` and phone normalization.** Identifier resolution and phone-number normalization are replaced by an optional user id.
- **`UpdateAsync` failures.** The `ResourceValidationException` paths that follow a failed `UpdateAsync` are left out; those updates are treated as accepted.
- **Save failures inside `Refresh`.** A failure of the `SaveChangesAsync` in `Refresh`'s `finally` (for example a conflict) is not modelled inside `Refresh`. That translation is modelled separately in `AppData.SaveChanges`.
- **Claim parsing.** `long.Parse` of the stamp claim is not modelled, because the claims are typed. A missing or duplicated stamp claim is modelled as the `InvalidOperation` of `Single`.
- **Side effects of sending.** Message texts, localization, `Humanize`, the magic-link URL and query string, log-scope data and response headers are not part of the model.
- **Delivery.** E-mail, SMS, SignalR and push delivery are reduced to the set of channels and push recipients.
- **Clock.** The clock is a parameter. Time is held in `DateTimeOffset` ticks rather than seconds so that the whole-second truncation of `ToUnixTimeSeconds` is explicit.
- **Connection data.** The connection's IP and CDN country/city headers are an opaque `Connection`.
- **Concurrency.** The privileged-session cap is a count followed by an insert, with no serialization. Concurrent refreshes of one session are unguarded. Every invariant here is about sequential runs only; nothing claims the cap holds under interleaving.
- IdentityProperties.ApplyNeverDemotes: privilege monotonicity is stated per request rather than across a whole run. In the model a deleted session's id could later be reused by a new, unprivileged session.
- ExceptionHandling.StartsWithIgnoresCase: the internal-request test folds case on ASCII letters only. `InvariantCultureIgnoreCase` also folds other scripts.
- ExceptionHandling.RebuiltException: the exception message, the localized key and the `Payload` of `ResourceValidationException` are not modelled; only the type and the `Data` entries are.
- **Type lookup.** An assembly type that is not an exception type (which would fail `Activator.CreateInstance`) is not modelled. The known types are taken to be exception types.
- **`DetectChanges`.** `ChangeTracker.DetectChanges` is not modelled. The entries arrive with their states already detected.
- **Database row versions.** Row-version generation by the database, and the effects of a save on the stored rows, are not modelled. The model covers the concurrency check on every configured token, the missing-row failure of an update or delete, and the reported count. The tokens that the identity framework configures itself, such as the string `ConcurrencyStamp` of users and roles, appear only as an entry's token set; `AppData.ConcurrencyTokens` covers only the ones `ConfigureConcurrencyStamp` adds.
- **Other parts of the repository.** `SignUp`, `SocialSignedIn`, the other controllers, the product and caching services and the client UI are outside this model.

## Findings

| source | as written | input that shows it | evidently intended | confidence | as-written member | corrected member |
|---|---|---|---|---|---|---|
| src/Server/Eventify.Server.Api/Controllers/Identity/IdentityController.cs:211-212 | `refreshTicket?.Principal.IsAuthenticated() is false` is false when the ticket is null. Evaluation then reaches `refreshTicket!.Properties`, which throws `NullReferenceException`. That is not caught as unauthorized, so the caller gets a server error. | A refresh request whose token the protector cannot decode (`Unprotect` returns null) | An undecodable refresh token is answered as unauthorized, like an expired one | high, not executed | Identity.Refresh, through Identity.CheckRefreshTicketAsWritten (exhibited by IdentityProperties.UndecodableRefreshEndpoint and IdentityProperties.UndecodableRefreshToken) | Identity.RefreshCorrected, through Identity.CheckRefreshTicket (invariant kept: IdentityProperties.RefreshCorrectedPreservesValid) |

=== FILE: app_db_context.dfy ===
/** The pieces of `AppDbContext` that carry behaviour: the concurrency-stamp
    rewrite done before every save, the translation of a concurrency failure
    into a conflict, the row-version configuration of `ConcurrencyStamp`
    properties, and the `ProductShortId` sequence. */
module AppData {
  import opened Wrappers

  const ConcurrencyStamp: string := "ConcurrencyStamp"

  datatype EntityState = Detached | Unchanged | Added | Modified | Deleted

  /** A property value as the change tracker holds it. */
  datatype PropValue = Bytes(bytes: seq<bv8>) | Text(text: string) | NullValue

  /** A tracked entity: its key, its state, its current and original
      property values by name, and the names of the properties its entity
      type declares concurrency tokens. */
  datatype Entry = Entry(key: nat, state: EntityState,
                         current: map<string, PropValue>, original: map<string, PropValue>,
                         tokens: set<string>)

  /** A property's value, `null` when the map does not hold it. */
  function Get(values: map<string, PropValue>, p: string): PropValue {
    if p in values then values[p] else NullValue
  }

  predicate IsUpdateOrDelete(e: Entry) {
    e.state == Modified || e.state == Deleted
  }

  /** The entry holds a current `ConcurrencyStamp` of type `byte[]`. */
  predicate HasByteStamp(e: Entry) {
    ConcurrencyStamp in e.current && e.current[ConcurrencyStamp].Bytes?
  }

  /** The entries whose original stamp is overwritten before saving. */
  predicate Rewritten(e: Entry) {
    IsUpdateOrDelete(e) && HasByteStamp(e)
  }

  function RewriteEntry(e: Entry): Entry {
    if Rewritten(e) then e.(original := e.original[ConcurrencyStamp := e.current[ConcurrencyStamp]]) else e
  }

  /** The rewrite applied to every tracked entry. */
  function RewriteAll(entries: seq<Entry>): (r: seq<Entry>)
    ensures |r| == |entries| && forall i :: 0 <= i < |r| ==> r[i] == RewriteEntry(entries[i])
  {
    seq(|entries|, i requires 0 <= i < |entries| => RewriteEntry(entries[i]))
  }

  /** `ReplaceOriginalConcurrencyStamp`: for every modified or deleted entry
      with a `byte[]` stamp, the original stamp becomes the current one, so
      the stamp the client sent back is the one the database compares
      against. Everything else is left as it was. */
  method ReplaceOriginalConcurrencyStamp(entries: seq<Entry>) returns (r: seq<Entry>)
    ensures |r| == |entries|
    ensures forall i :: 0 <= i < |r| ==>
      r[i].key == entries[i].key && r[i].state == entries[i].state && r[i].current == entries[i].current &&
      r[i].tokens == entries[i].tokens
    ensures forall i :: 0 <= i < |r| && Rewritten(entries[i]) ==>
      r[i].original == entries[i].original[ConcurrencyStamp := entries[i].current[ConcurrencyStamp]]
    ensures forall i :: 0 <= i < |r| && !Rewritten(entries[i]) ==> r[i] == entries[i]
    ensures r == RewriteAll(entries)
  {
    r := [];
    var k := 0;
    while k < |entries|
      invariant 0 <= k <= |entries|
      invariant |r| == k
      invariant forall i :: 0 <= i < k ==> r[i] == RewriteEntry(entries[i])
    {
      r := r + [RewriteEntry(entries[k])];
      k := k + 1;
    }
  }

  /** The rewrite is idempotent, and afterwards every checked entry has
      equal original and current stamps. */
  lemma RewriteIdempotent(e: Entry)
    ensures RewriteEntry(RewriteEntry(e)) == RewriteEntry(e)
    ensures Rewritten(e) ==>
      RewriteEntry(e).original[ConcurrencyStamp] == RewriteEntry(e).current[ConcurrencyStamp]
  {
  }

  // ---------------------------------------------------------------------
  // Model configuration

  datatype ClrType = ByteArray | StringType | OtherType(name: string)

  /** `ConfigureConcurrencyStamp` on one entity type: the properties it
      makes row-version concurrency tokens. */
  function ConcurrencyTokens(properties: map<string, ClrType>): (r: set<string>)
    ensures r <= {ConcurrencyStamp}
    ensures ConcurrencyStamp in r <==>
      ConcurrencyStamp in properties && properties[ConcurrencyStamp] == ByteArray
  {
    set p | p in properties && p == ConcurrencyStamp && properties[p] == ByteArray
  }

  // ---------------------------------------------------------------------
  // Saving

  /** The stored rows: for each key present, its column values by name. */
  type Rows = map<nat, map<string, PropValue>>

  /** The database's optimistic check for one entry: an update or delete
      touches its row only when the row is still there and every
      concurrency token of the row equals the entry's original value for
      it; otherwise it affects no row. */
  predicate PassesConcurrencyCheck(rows: Rows, e: Entry) {
    IsUpdateOrDelete(e) ==>
      e.key in rows && forall p :: p in e.tokens ==> Get(rows[e.key], p) == Get(e.original, p)
  }

  predicate IsWrite(e: Entry) {
    e.state == Added || e.state == Modified || e.state == Deleted
  }

  function CountWrites(entries: seq<Entry>): (n: nat)
    ensures n <= |entries|
  {
    if |entries| == 0 then 0 else (if IsWrite(entries[0]) then 1 else 0) + CountWrites(entries[1..])
  }

  datatype BaseError = ConcurrencyFailure | OtherFailure(reason: string)

  /** The inherited `SaveChanges`: `dbFailure` stands for any failure of
      the database that is not a concurrency failure. */
  function BaseSaveChanges(rows: Rows, entries: seq<Entry>, dbFailure: Option<string>): Result<nat, BaseError> {
    if dbFailure.Some? then Err(OtherFailure(dbFailure.value))
    else if exists i :: 0 <= i < |entries| && !PassesConcurrencyCheck(rows, entries[i]) then Err(ConcurrencyFailure)
    else Ok(CountWrites(entries))
  }

  datatype SaveError = Conflict | DatabaseError(reason: string)

  /** `SaveChanges` / `SaveChangesAsync`: rewrite the original stamps, save,
      and report a concurrency failure as a conflict. */
  function SaveChanges(rows: Rows, entries: seq<Entry>, dbFailure: Option<string>): (r: Result<nat, SaveError>)
    ensures r.Ok? ==> dbFailure.None? && r.value <= |entries|
    ensures dbFailure.Some? ==> r == Err(DatabaseError(dbFailure.value))
  {
    match BaseSaveChanges(rows, RewriteAll(entries), dbFailure)
    case Ok(n) => Ok(n)
    case Err(ConcurrencyFailure) => Err(Conflict)
    case Err(OtherFailure(m)) => Err(DatabaseError(m))
  }

  /** The value of token `p` the database ends up comparing: the current
      stamp when it is a `byte[]`, else the original value. */
  function SentValue(e: Entry, p: string): PropValue {
    if p == ConcurrencyStamp && HasByteStamp(e) then e.current[p] else Get(e.original, p)
  }

  /** An update or delete whose row is gone, or one of whose tokens no
      longer holds the value sent for it. */
  predicate Stale(rows: Rows, e: Entry) {
    && IsUpdateOrDelete(e)
    && (e.key !in rows || exists p :: p in e.tokens && Get(rows[e.key], p) != SentValue(e, p))
  }

  lemma {:induction false} RewriteChecksSentValues(rows: Rows, e: Entry)
    ensures PassesConcurrencyCheck(rows, RewriteEntry(e)) <==> !Stale(rows, e)
  {
    var e' := RewriteEntry(e);
    assert e'.key == e.key && e'.state == e.state && e'.tokens == e.tokens;
    if IsUpdateOrDelete(e) {
      forall p | p in e.tokens
        ensures Get(e'.original, p) == SentValue(e, p)
      {
      }
    }
  }

  /** A save without a database failure is refused as a conflict exactly
      when some updated or deleted entity's row is gone or holds a token
      value other than the one sent; for a `byte[]` stamp it is the
      current stamp, the one the client sent, that counts. */
  lemma {:induction false} SaveConflictIffStale(rows: Rows, entries: seq<Entry>)
    ensures SaveChanges(rows, entries, None) == Err(Conflict) <==>
      exists i :: 0 <= i < |entries| && Stale(rows, entries[i])
    ensures SaveChanges(rows, entries, None).Ok? <==>
      forall i :: 0 <= i < |entries| ==> !Stale(rows, entries[i])
  {
    var rw := RewriteAll(entries);
    forall i | 0 <= i < |entries|
      ensures PassesConcurrencyCheck(rows, rw[i]) <==> !Stale(rows, entries[i])
    {
      RewriteChecksSentValues(rows, entries[i]);
    }
  }

  /** Without the rewrite the client's stamp would be ignored: an update
      whose original stamp still matches the row goes through even though
      the stamp the client sent is stale. With the rewrite it is a
      conflict. */
  lemma StaleClientStampNeedsRewrite()
    ensures var rows: Rows := map[1 := map[ConcurrencyStamp := Bytes([1])]];
      var e := Entry(1, Modified, map[ConcurrencyStamp := Bytes([0])], map[ConcurrencyStamp := Bytes([1])],
                     {ConcurrencyStamp});
      && BaseSaveChanges(rows, [e], None) == Ok(1)
      && SaveChanges(rows, [e], None) == Err(Conflict)
  {
    var rows: Rows := map[1 := map[ConcurrencyStamp := Bytes([1])]];
    var e := Entry(1, Modified, map[ConcurrencyStamp := Bytes([0])], map[ConcurrencyStamp := Bytes([1])],
                   {ConcurrencyStamp});
    assert CountWrites([e]) == 1 by {
      assert [e][1..] == [];
    }
    assert Get(rows[1], ConcurrencyStamp) != Get(RewriteAll([e])[0].original, ConcurrencyStamp);
    assert !PassesConcurrencyCheck(rows, RewriteAll([e])[0]);
  }

  /** Every stored row with column `q` set to `v`. */
  function SetColumn(rows: Rows, q: string, v: PropValue): (r: Rows)
    ensures r.Keys == rows.Keys
    ensures forall k :: k in r ==> r[k] == rows[k][q := v]
  {
    map k | k in rows :: rows[k][q := v]
  }

  /** What `ConfigureConcurrencyStamp` decides for the save, for entity
      types whose only concurrency tokens are the ones it configures:
      a column it does not make a token never causes a conflict, whatever
      the database holds in it, and a stale `byte[]` stamp sent back on an
      update or delete of a type whose `ConcurrencyStamp` is a `byte[]`
      always does. */
  lemma {:induction false} ConfiguredTokensDecideConflicts(types: seq<map<string, ClrType>>, rows: Rows,
                                                           entries: seq<Entry>, q: string, v: PropValue)
    requires |types| == |entries|
    requires forall i :: 0 <= i < |entries| ==> entries[i].tokens == ConcurrencyTokens(types[i])
    ensures (q != ConcurrencyStamp ||
             forall i :: 0 <= i < |types| ==> !(ConcurrencyStamp in types[i] && types[i][ConcurrencyStamp] == ByteArray)) ==>
      SaveChanges(SetColumn(rows, q, v), entries, None) == SaveChanges(rows, entries, None)
    ensures forall i :: (&& 0 <= i < |entries| && IsUpdateOrDelete(entries[i]) && HasByteStamp(entries[i])
                         && ConcurrencyStamp in types[i] && types[i][ConcurrencyStamp] == ByteArray
                         && entries[i].key in rows
                         && Get(rows[entries[i].key], ConcurrencyStamp) != entries[i].current[ConcurrencyStamp]) ==>
      SaveChanges(rows, entries, None) == Err(Conflict)
  {
    var rows' := SetColumn(rows, q, v);
    if q != ConcurrencyStamp ||
       forall i :: 0 <= i < |types| ==> !(ConcurrencyStamp in types[i] && types[i][ConcurrencyStamp] == ByteArray) {
      forall i | 0 <= i < |entries|
        ensures Stale(rows', entries[i]) <==> Stale(rows, entries[i])
      {
        var e := entries[i];
        assert q !in e.tokens;
        if e.key in rows {
          forall p | p in e.tokens
            ensures Get(rows'[e.key], p) == Get(rows[e.key], p)
          {
          }
        }
      }
      SaveConflictIffStale(rows, entries);
      SaveConflictIffStale(rows', entries);
    }
    forall i | 0 <= i < |entries| && IsUpdateOrDelete(entries[i]) && HasByteStamp(entries[i]) &&
      ConcurrencyStamp in types[i] && types[i][ConcurrencyStamp] == ByteArray &&
      entries[i].key in rows && Get(rows[entries[i].key], ConcurrencyStamp) != entries[i].current[ConcurrencyStamp]
      ensures SaveChanges(rows, entries, None) == Err(Conflict)
    {
      assert ConcurrencyStamp in entries[i].tokens;
      assert Stale(rows, entries[i]);
      SaveConflictIffStale(rows, entries);
    }
  }

  // ---------------------------------------------------------------------
  // The ProductShortId sequence

  const ShortIdStart: int := 10_000
  const ShortIdIncrement: int := 1
  const Int32Max: int := 0x7FFF_FFFF

  datatype SequenceError = SequenceExhausted

  /** `NEXT VALUE FOR ProductShortId` on an `int` sequence starting at
      10 000 with increment 1 (no cycling: past the `int` maximum it fails). */
  function NextShortId(last: Option<int>): (r: Result<int, SequenceError>)
    ensures last.None? ==> r == Ok(ShortIdStart)
    ensures last.Some? && r.Ok? ==> r.value == last.value + 1
    ensures r.Err? <==> last.Some? && last.value >= Int32Max
    ensures r.Ok? ==> r.value <= Int32Max
  {
    match last
    case None => Ok(ShortIdStart)
    case Some(v) => if v + ShortIdIncrement > Int32Max then Err(SequenceExhausted) else Ok(v + ShortIdIncrement)
  }

  /** The values handed out by `n` draws from a fresh sequence. */
  function Draw(n: nat): (r: Result<seq<int>, SequenceError>)
    ensures r.Ok? ==> |r.value| == n
    ensures r.Ok? && n > 0 ==> r.value[0] == ShortIdStart
    ensures r.Ok? ==> forall k :: 0 < k < n ==> r.value[k] == r.value[k - 1] + ShortIdIncrement
    ensures r.Ok? ==> forall k :: 0 <= k < n ==> r.value[k] <= Int32Max
  {
    if n == 0 then Ok([])
    else match Draw(n - 1)
      case Err(e) => Err(e)
      case Ok(vs) =>
        match NextShortId(if |vs| == 0 then None else Some(vs[|vs| - 1]))
        case Err(e) => Err(e)
        case Ok(v) => Ok(vs + [v])
  }

  /** The k-th short id drawn is 10 000 + k, so short ids are distinct and
      increasing, until the `int` range runs out. */
  lemma {:induction false} DrawValues(n: nat)
    ensures n <= Int32Max - ShortIdStart + 1 ==>
      Draw(n).Ok? && |Draw(n).value| == n &&
      forall k :: 0 <= k < n ==> Draw(n).value[k] == ShortIdStart + k
    ensures n > Int32Max - ShortIdStart + 1 ==> Draw(n) == Err(SequenceExhausted)
  {
    if n > 0 {
      DrawValues(n - 1);
    }
  }
}

=== FILE: exception_handler.dfy ===
/** The client's `ExceptionDelegatingHandler`: which failures count as "the
    server could not be reached", how a response from the app's own server
    is turned into an exception, and what online flag is published. */
module ExceptionHandling {
  import opened Wrappers

  datatype WebExceptionStatus = ConnectFailure | OtherWebStatus(code: int)

  datatype SocketError = HostNotFound | HostUnreachable | HostDown | TimedOut | ConnectionRefused | OtherSocketError(code: int)

  /** .NET exceptions as far as the classification looks at them. An
      `AggregateException` holds its children; every other kind may wrap
      one inner exception. `Other` is any further type, named, with its
      `Data` dictionary. */
  datatype Exception =
    | Timeout(inner: Option<Exception>)
    | Web(status: WebExceptionStatus, inner: Option<Exception>)
    | Socket(code: SocketError, inner: Option<Exception>)
    | HttpRequest(statusCode: Option<int>, inner: Option<Exception>)
    | Aggregate(children: seq<Exception>)
    | Other(typeName: string, data: map<string, string>, inner: Option<Exception>)

  /** `Exception.InnerException`; for an aggregate it is its first child. */
  function InnerException(e: Exception): (r: Option<Exception>)
    ensures r.Some? ==> r.value < e
  {
    match e
    case Aggregate(cs) => if |cs| > 0 then Some(cs[0]) else None
    case Timeout(i) => i
    case Web(_, i) => i
    case Socket(_, i) => i
    case HttpRequest(_, i) => i
    case Other(_, _, i) => i
  }

  const HttpRequestTimeout: int := 408
  const HttpBadGateway: int := 502
  const HttpServiceUnavailable: int := 503
  const HttpGatewayTimeout: int := 504
  const HttpUnauthorized: int := 401
  const HttpForbidden: int := 403

  /** The failures that signal an unreachable server by themselves,
      regardless of what they wrap. */
  predicate DirectConnectionFailure(e: Exception) {
    match e
    case Timeout(_) => true
    case Web(status, _) => status == ConnectFailure
    case Socket(code, _) => code in {HostNotFound, HostUnreachable, HostDown, TimedOut}
    case HttpRequest(status, _) =>
      status.Some? && status.value in {HttpBadGateway, HttpGatewayTimeout, HttpServiceUnavailable, HttpRequestTimeout}
    case Aggregate(_) => false
    case Other(_, _, _) => false
  }

  /** `IsServerConnectionException`, disjunct by disjunct. */
  function IsServerConnectionException(e: Exception): (r: bool)
    ensures DirectConnectionFailure(e) ==> r
    ensures r && !DirectConnectionFailure(e) ==> InnerException(e).Some?
    ensures e.Other? && e.inner.None? ==> !r
    decreases e
  {
    || e.Timeout?
    || (e.Web? && e.status == ConnectFailure)
    || (InnerException(e).Some? && IsServerConnectionException(InnerException(e).value))
    || (e.Aggregate? && exists i :: 0 <= i < |e.children| && IsServerConnectionException(e.children[i]))
    || (e.Socket? && e.code in {HostNotFound, HostUnreachable, HostDown, TimedOut})
    || (e.HttpRequest? && e.statusCode.Some? &&
        e.statusCode.value in {HttpBadGateway, HttpGatewayTimeout, HttpServiceUnavailable, HttpRequestTimeout})
  }

  /** Every exception in the tree below (and including) `e`. */
  function Nodes(e: Exception): set<Exception>
    decreases e, 1
  {
    match e
    case Aggregate(cs) => {e} + NodesOfAll(cs)
    case _ => {e} + (if e.inner.Some? then Nodes(e.inner.value) else {})
  }

  function NodesOfAll(cs: seq<Exception>): set<Exception>
    decreases cs, 0
  {
    if |cs| == 0 then {} else Nodes(cs[0]) + NodesOfAll(cs[1..])
  }

  /** Reference reading of the classification: some exception anywhere in
      the tree is a connection failure in its own right. */
  ghost predicate HasConnectionFailureCause(e: Exception) {
    exists n :: n in Nodes(e) && DirectConnectionFailure(n)
  }

  lemma {:induction false} NodesOfAllMember(cs: seq<Exception>, n: Exception)
    ensures n in NodesOfAll(cs) <==> exists i :: 0 <= i < |cs| && n in Nodes(cs[i])
    decreases cs
  {
    if |cs| > 0 {
      NodesOfAllMember(cs[1..], n);
      assert forall i :: 1 <= i < |cs| ==> cs[1..][i - 1] == cs[i];
      if n in NodesOfAll(cs[1..]) {
        var j :| 0 <= j < |cs[1..]| && n in Nodes(cs[1..][j]);
        assert n in Nodes(cs[j + 1]);
      }
    }
  }

  /** The recursive classification agrees with the reference reading: an
      exception is a server-connection exception exactly when some
      exception in its tree is a connection failure by itself. */
  lemma {:induction false} ClassificationMatchesReference(e: Exception)
    ensures IsServerConnectionException(e) <==> HasConnectionFailureCause(e)
    decreases e
  {
    match e
    case Aggregate(cs) =>
      NodesOfAllMember(cs, e);
      forall i | 0 <= i < |cs| {
        ClassificationMatchesReference(cs[i]);
      }
      if IsServerConnectionException(e) {
        var i :| 0 <= i < |cs| && IsServerConnectionException(cs[i]);
        var n :| n in Nodes(cs[i]) && DirectConnectionFailure(n);
        NodesOfAllMember(cs, n);
        assert n in Nodes(e);
      }
      if HasConnectionFailureCause(e) {
        var n :| n in Nodes(e) && DirectConnectionFailure(n);
        assert !DirectConnectionFailure(e);
        assert n in NodesOfAll(cs);
        NodesOfAllMember(cs, n);
        var i :| 0 <= i < |cs| && n in Nodes(cs[i]);
        assert HasConnectionFailureCause(cs[i]);
      }
    case _ =>
      assert e in Nodes(e);
      assert InnerException(e) == e.inner;
      if e.inner.Some? {
        ClassificationMatchesReference(e.inner.value);
        assert Nodes(e) == {e} + Nodes(e.inner.value);
        if HasConnectionFailureCause(e.inner.value) {
          var n :| n in Nodes(e.inner.value) && DirectConnectionFailure(n);
          assert n in Nodes(e);
        }
      } else {
        assert Nodes(e) == {e};
      }
  }

  /** The classification facts case by case: a timeout always qualifies; a
      web exception by itself only with `ConnectFailure`; a socket error
      only for the four host-level codes; an HTTP request exception by
      itself only for 502, 504, 503 or 408; and a qualifying exception
      makes anything wrapping it, or any aggregate holding it, qualify. */
  lemma ClassificationFacts(e: Exception, cs: seq<Exception>, i: nat, s: WebExceptionStatus,
                            c: SocketError, code: Option<int>, name: string, data: map<string, string>)
    ensures IsServerConnectionException(Timeout(None))
    ensures IsServerConnectionException(Web(s, None)) <==> s == ConnectFailure
    ensures IsServerConnectionException(Socket(c, None)) <==> c in {HostNotFound, HostUnreachable, HostDown, TimedOut}
    ensures IsServerConnectionException(HttpRequest(code, None)) <==>
      code.Some? && code.value in {HttpBadGateway, HttpGatewayTimeout, HttpServiceUnavailable, HttpRequestTimeout}
    ensures !IsServerConnectionException(Other(name, data, None))
    ensures IsServerConnectionException(e) ==> IsServerConnectionException(Other(name, data, Some(e)))
    ensures i < |cs| && IsServerConnectionException(cs[i]) ==> IsServerConnectionException(Aggregate(cs))
  {
  }

  // ---------------------------------------------------------------------
  // Case-insensitive string tests

  function FoldCase(c: char): char {
    if 'A' <= c <= 'Z' then (c as int + 32) as char else c
  }

  /** `StartsWith(prefix, StringComparison.InvariantCultureIgnoreCase)`,
      with case folded on ASCII letters. */
  predicate StartsWithIgnoreCase(s: string, prefix: string) {
    |prefix| <= |s| && forall i :: 0 <= i < |prefix| ==> FoldCase(s[i]) == FoldCase(prefix[i])
  }

  /** `Contains(sub, StringComparison.InvariantCultureIgnoreCase)`. */
  predicate ContainsIgnoreCase(s: string, sub: string) {
    exists i :: 0 <= i <= |s| - |sub| && StartsWithIgnoreCase(s[i..], sub)
  }

  function Upper(c: char): char {
    if 'a' <= c <= 'z' then (c as int - 32) as char else c
  }

  /** Case does not matter: upper-casing the URI keeps the answer, and any
      URI made of the server address and more starts with it. */
  lemma StartsWithIgnoresCase(s: string, prefix: string, rest: string)
    ensures StartsWithIgnoreCase(seq(|s|, i requires 0 <= i < |s| => Upper(s[i])), prefix)
            <==> StartsWithIgnoreCase(s, prefix)
    ensures StartsWithIgnoreCase(prefix + rest, prefix)
  {
    var up := seq(|s|, i requires 0 <= i < |s| => Upper(s[i]));
    assert forall i :: 0 <= i < |s| ==> FoldCase(up[i]) == FoldCase(s[i]);
    assert forall i :: 0 <= i < |prefix| ==> (prefix + rest)[i] == prefix[i];
  }

  // ---------------------------------------------------------------------
  // SendAsync

  /** The body of an error response from the app's server. */
  datatype ProblemDetails = ProblemDetails(typeName: string, extensions: map<string, string>)

  datatype Response = Response(statusCode: int, mediaType: Option<string>, problem: ProblemDetails)

  /** What `SendAsync` ends with, and the IS_ONLINE_CHANGED value it
      publishes (None when nothing is published). */
  datatype HandlerOutcome = HandlerOutcome(result: Result<Response, Exception>, published: Option<bool>)

  predicate IsSuccessStatusCode(code: int) {
    200 <= code <= 299
  }

  /** The exception rebuilt from problem details: of the named type when
      the shared assembly defines it, else `UnknownException`, with every
      extension entry copied into its `Data`. */
  function RebuiltException(p: ProblemDetails, knownTypes: set<string>): (r: Exception)
    ensures r.Other? && r.inner.None?
    ensures r.typeName == (if p.typeName in knownTypes then p.typeName else "UnknownException")
    ensures forall k :: k in p.extensions ==> k in r.data && r.data[k] == p.extensions[k]
    ensures r.data.Keys == p.extensions.Keys
  {
    Other(if p.typeName in knownTypes then p.typeName else "UnknownException", p.extensions, None)
  }

  function ServerConnectionException(cause: Exception): Exception {
    Other("ServerConnectionException", map[], Some(cause))
  }

  /** The handler's own wrapper around a lost connection (it always carries
      the cause; an exception rebuilt from a response never does). */
  predicate IsConnectionLoss(r: Result<Response, Exception>) {
    r.Err? && r.error.Other? && r.error.typeName == "ServerConnectionException" && r.error.inner.Some?
  }

  function UnauthorizedException(): Exception {
    Other("UnauthorizedException", map[], None)
  }

  function ForbiddenException(): Exception {
    Other("ForbiddenException", map[], None)
  }

  /** The exception raised inside the `try` once a response arrived, if any. */
  function ResponseException(internal: bool, resp: Response, knownTypes: set<string>): (r: Option<Exception>)
    ensures r.None? <==> IsSuccessStatusCode(resp.statusCode)
    ensures r.Some? ==> r.value.Other? || r.value == HttpRequest(Some(resp.statusCode), None)
    ensures r.Some? && r.value.HttpRequest? ==>
      resp.statusCode != HttpUnauthorized && resp.statusCode != HttpForbidden
    ensures r.Some? && r.value.Other? ==> !IsServerConnectionException(r.value)
  {
    if internal && !IsSuccessStatusCode(resp.statusCode) && resp.mediaType.Some?
       && ContainsIgnoreCase(resp.mediaType.value, "application/json")
    then Some(RebuiltException(resp.problem, knownTypes))
    else if resp.statusCode == HttpUnauthorized then Some(UnauthorizedException())
    else if resp.statusCode == HttpForbidden then Some(ForbiddenException())
    else if !IsSuccessStatusCode(resp.statusCode) then Some(HttpRequest(Some(resp.statusCode), None))
    else None
  }

  /** `SendAsync`: `sent` is what the inner handler produced, a response or
      an exception. The communication flag turns true when a response
      arrives and false again when a connection-class failure is caught. */
  function SendAsync(serverAddress: string, requestUri: string, knownTypes: set<string>,
                     sent: Result<Response, Exception>): (r: HandlerOutcome)
    ensures r.published.Some? <==> StartsWithIgnoreCase(requestUri, serverAddress)
    ensures r.result.Ok? ==> sent.Ok? && r.result.value == sent.value && IsSuccessStatusCode(sent.value.statusCode)
    ensures r.published.Some? ==> (r.published.value <==> sent.Ok? && !IsConnectionLoss(r.result))
  {
    var internal := StartsWithIgnoreCase(requestUri, serverAddress);
    var thrown := match sent
                  case Err(e) => Some(e)
                  case Ok(resp) => ResponseException(internal, resp, knownTypes);
    var communicated := sent.Ok?;
    var publish := (b: bool) => if internal then Some(b) else None;
    match thrown
    case None => HandlerOutcome(Ok(sent.value), publish(communicated))
    case Some(e) =>
      if (e.HttpRequest? && !communicated) || IsServerConnectionException(e)
      then HandlerOutcome(Err(ServerConnectionException(e)), publish(false))
      else HandlerOutcome(Err(e), publish(communicated))
  }

  /** What the handler does with each kind of answer. */
  lemma SendAsyncCases(serverAddress: string, requestUri: string, knownTypes: set<string>,
                       resp: Response, e: Exception)
    ensures var internal := StartsWithIgnoreCase(requestUri, serverAddress);
      var rebuilt := internal && resp.mediaType.Some? && ContainsIgnoreCase(resp.mediaType.value, "application/json");
      var onResp := SendAsync(serverAddress, requestUri, knownTypes, Ok(resp));
      var onExn := SendAsync(serverAddress, requestUri, knownTypes, Err(e));
      // a success response passes through and reports the server online
      && (IsSuccessStatusCode(resp.statusCode) ==>
            onResp == HandlerOutcome(Ok(resp), if internal then Some(true) else None))
      // an error response from our own server with a JSON body becomes the server's exception
      && (internal && !IsSuccessStatusCode(resp.statusCode) && resp.mediaType.Some? &&
          ContainsIgnoreCase(resp.mediaType.value, "application/json") ==>
            onResp == HandlerOutcome(Err(RebuiltException(resp.problem, knownTypes)), Some(true)))
      // otherwise 401 and 403 map to their exceptions, the server reported online
      && (!rebuilt && resp.statusCode == HttpUnauthorized ==>
            onResp == HandlerOutcome(Err(UnauthorizedException()), if internal then Some(true) else None))
      && (!rebuilt && resp.statusCode == HttpForbidden ==>
            onResp == HandlerOutcome(Err(ForbiddenException()), if internal then Some(true) else None))
      // a gateway or timeout status that is not rebuilt counts as a lost connection, reported offline
      && (!rebuilt && resp.statusCode in {HttpBadGateway, HttpGatewayTimeout, HttpServiceUnavailable, HttpRequestTimeout} ==>
            onResp == HandlerOutcome(Err(ServerConnectionException(HttpRequest(Some(resp.statusCode), None))),
                                     if internal then Some(false) else None))
      // a transport failure without a response is always a lost connection
      && (e.HttpRequest? || IsServerConnectionException(e) ==>
            onExn == HandlerOutcome(Err(ServerConnectionException(e)), if internal then Some(false) else None))
      // any other exception propagates unchanged, the server reported offline
      && (!e.HttpRequest? && !IsServerConnectionException(e) ==>
            onExn == HandlerOutcome(Err(e), if internal then Some(false) else None))
  {
    var internal := StartsWithIgnoreCase(requestUri, serverAddress);
    if internal && !IsSuccessStatusCode(resp.statusCode) && resp.mediaType.Some? &&
       ContainsIgnoreCase(resp.mediaType.value, "application/json") {
      assert !IsServerConnectionException(RebuiltException(resp.problem, knownTypes));
    }
  }
}

=== FILE: identity.dfy ===
/** The server side of sign-in and session refresh (`IdentityController`),
    as a sequential state machine over a user table and the session tables.

    Credential checks, token generation and verification, the refresh-token
    protector and the security-stamp validator are collaborators whose
    verdicts arrive as inputs (`SignInOutcome`s and boolean flags); the
    clock arrives as `now`; message delivery is reduced to the set of
    channels a code is sent over. */
module Identity {
  import opened Wrappers
  import opened Time
  import opened Sessions

  /** The user columns this core reads and writes. `confirmed` is the
      verdict of the user-confirmation policy; the three `...RequestedOn`
      instants are non-null while the matching code is live. */
  datatype User = User(
    twoFactorEnabled: bool,
    confirmed: bool,
    emailConfirmed: bool,
    phoneNumberConfirmed: bool,
    lockoutEnd: Option<Ticks>,
    accessFailedCount: nat,
    otpRequestedOn: Option<Ticks>,
    twoFactorTokenRequestedOn: Option<Ticks>,
    elevatedAccessTokenRequestedOn: Option<Ticks>)

  /** `AppSettings.Identity`: the privileged-session cap (-1 = no limit)
      and the two code lifetimes, in ticks. */
  datatype Settings = Settings(
    maxConcurrentPrivilegedSessions: int,
    otpTokenLifetime: int,
    twoFactorTokenLifetime: int)

  const Unlimited: int := -1

  /** Everything the controller persists: users by id and the session tables. */
  datatype Store = Store(users: map<UserId, User>, db: SessionDb)

  /** The identity framework's `SignInResult`, one flag at a time. */
  datatype SignInOutcome = Succeeded | RequiresTwoFactor | LockedOut | NotAllowed | Failed

  /** How the first sign-in step was made: by password, or by a one-time
      code that reached the user over one of these channels, or by any
      other method, whose name matches none of these. */
  datatype AuthMethod = Password | Email | Sms | Push | OtherMethod

  /** The session claims put into the issued access and refresh tokens. */
  datatype Claim =
    | ElevatedSession
    | SessionIdClaim(sessionId: SessionId)
    | SessionStampClaim(stamp: int)
    | PrivilegedSession

  /** Where a one-time code is sent. */
  datatype Channel = EmailChannel | SmsChannel | SignalRChannel | PushChannel

  /** The caller's connection: remote IP and the CDN's country/city headers. */
  datatype Connection = Connection(ip: Option<string>, address: string)

  datatype BadRequestReason =
    | UserIsNotConfirmed
    | UserLockedOut(tryAgainIn: int)
    | InvalidToken
    | TwoFactorNotEnabled
    | TwoFactorNotRequired

  /** The exceptions the controller raises. `ReusedRefreshToken` is a kind
      of unauthorized failure and carries both stamps. `InvalidOperation`
      is `.Value` on a null value or `Single` on a claim that is not there
      exactly once; `NullReference` is a member access on null. */
  datatype Error =
    | Unauthorized
    | ReusedRefreshToken(stampInDatabase: int, stampInToken: int)
    | BadRequest(reason: BadRequestReason)
    | TooManyRequests(tryAgainIn: int)
    | ResourceNotFound
    | InvalidOperation
    | NullReference

  /** `catch (UnauthorizedException)` matches these. */
  predicate IsUnauthorized(e: Error) {
    e.Unauthorized? || e.ReusedRefreshToken?
  }

  /** The result of a request together with the state the database holds
      afterwards (errors may still persist changes). */
  datatype Reply<T> = Reply(result: Result<T, Error>, store: Store)

  /** An issued access/refresh token pair, by the claims it carries. */
  datatype Tokens = Tokens(userId: UserId, sessionId: SessionId, claims: seq<Claim>)

  /** A refresh token as the protector gives it back. */
  datatype RefreshTicket = RefreshTicket(
    authenticated: bool,
    expiresUtc: Option<Ticks>,
    userId: UserId,
    sessionId: SessionId,
    claims: seq<Claim>)

  /** The refresh token issued with `t`, valid until `expiresUtc`. */
  function IssuedTicket(t: Tokens, expiresUtc: Ticks): RefreshTicket {
    RefreshTicket(true, Some(expiresUtc), t.userId, t.sessionId, t.claims)
  }

  // ---------------------------------------------------------------------
  // Privilege rule

  /** The user's stored privileged sessions. */
  function PrivilegedSessionsOf(sessions: map<SessionId, UserSession>, u: UserId): set<SessionId> {
    set id | id in sessions && sessions[id].userId == u && sessions[id].privileged
  }

  /** The `CountAsync` of the user's privileged sessions in the database. */
  function PrivilegedCount(sessions: map<SessionId, UserSession>, u: UserId): nat {
    |PrivilegedSessionsOf(sessions, u)|
  }

  /** Whether `s` is (or stays) privileged: always under an unlimited cap,
      always once privileged, otherwise only while the user's stored
      privileged sessions are fewer than the cap. */
  function IsUserSessionPrivileged(cap: int, s: UserSession, sessions: map<SessionId, UserSession>): (r: bool)
    ensures cap == Unlimited ==> r
    ensures s.privileged ==> r
    ensures r && cap != Unlimited && !s.privileged ==> PrivilegedCount(sessions, s.userId) + 1 <= cap
    ensures !r ==> cap != Unlimited && !s.privileged && cap <= PrivilegedCount(sessions, s.userId)
  {
    cap == Unlimited || s.privileged || PrivilegedCount(sessions, s.userId) < cap
  }

  /** A new, not yet stored session for user `u`, started at `now`, its
      privilege decided against the stored sessions. */
  function CreateUserSession(cap: int, sessions: map<SessionId, UserSession>, id: SessionId, u: UserId,
                             deviceInfo: Option<string>, conn: Connection, now: Ticks): (r: UserSession)
    ensures r.id == id && r.userId == u && r.deviceInfo == deviceInfo
    ensures r.startedOn == now && r.renewedOn.None?
    ensures Stamp(r) == ToUnixTimeSeconds(now)
    ensures r.privileged <==> cap == Unlimited || PrivilegedCount(sessions, u) < cap
  {
    var s := UserSession(id, conn.ip, deviceInfo, Some(conn.address), false, now, None, u);
    s.(privileged := IsUserSessionPrivileged(cap, s, sessions))
  }

  // ---------------------------------------------------------------------
  // Session claims

  /** The claims added while signing in or refreshing, in the order the
      controller adds them. */
  function SessionClaims(elevated: bool, id: SessionId, stampedOn: Ticks, privileged: bool): (r: seq<Claim>)
    ensures ElevatedSession in r <==> elevated
    ensures PrivilegedSession in r <==> privileged
    ensures SessionIdClaim(id) in r
    ensures forall c :: c in r && c.SessionIdClaim? ==> c == SessionIdClaim(id)
    ensures forall c :: c in r && c.SessionStampClaim? ==> c.stamp == ToUnixTimeSeconds(stampedOn)
  {
    (if elevated then [ElevatedSession] else [])
    + [SessionIdClaim(id), SessionStampClaim(ToUnixTimeSeconds(stampedOn))]
    + (if privileged then [PrivilegedSession] else [])
  }

  /** The values of all stamp claims, in order. */
  function StampClaims(cs: seq<Claim>): (r: seq<int>)
    ensures |r| <= |cs|
    ensures forall v :: v in r <==> exists c :: c in cs && c.SessionStampClaim? && c.stamp == v
  {
    if |cs| == 0 then []
    else (if cs[0].SessionStampClaim? then [cs[0].stamp] else []) + StampClaims(cs[1..])
  }

  /** `Claims.Single(c => c.Type == SESSION_STAMP)`: the one stamp claim,
      or None where `Single` throws. */
  function SingleStamp(cs: seq<Claim>): Option<int> {
    var ss := StampClaims(cs);
    if |ss| == 1 then Some(ss[0]) else None
  }

  lemma {:induction false} StampClaimsAppend(a: seq<Claim>, b: seq<Claim>)
    ensures StampClaims(a + b) == StampClaims(a) + StampClaims(b)
  {
    if |a| == 0 {
      assert a + b == b;
    } else {
      var head: seq<int> := if a[0].SessionStampClaim? then [a[0].stamp] else [];
      assert (a + b)[0] == a[0];
      assert (a + b)[1..] == a[1..] + b;
      StampClaimsAppend(a[1..], b);
      calc {
        StampClaims(a + b);
        head + StampClaims(a[1..] + b);
        head + (StampClaims(a[1..]) + StampClaims(b));
        { assert head + (StampClaims(a[1..]) + StampClaims(b)) == (head + StampClaims(a[1..])) + StampClaims(b); }
        StampClaims(a) + StampClaims(b);
      }
    }
  }

  /** Every claim set the controller builds carries exactly one stamp: the
      Unix seconds of the instant it was built from. */
  lemma SessionClaimsCarryStamp(elevated: bool, id: SessionId, stampedOn: Ticks, privileged: bool)
    ensures SingleStamp(SessionClaims(elevated, id, stampedOn, privileged)) == Some(ToUnixTimeSeconds(stampedOn))
  {
    var pre: seq<Claim> := if elevated then [ElevatedSession] else [];
    var mid := [SessionIdClaim(id), SessionStampClaim(ToUnixTimeSeconds(stampedOn))];
    var post: seq<Claim> := if privileged then [PrivilegedSession] else [];
    StampClaimsAppend(pre + mid, post);
    StampClaimsAppend(pre, mid);
    assert StampClaims(mid) == [ToUnixTimeSeconds(stampedOn)] by {
      assert mid[1..] == [SessionStampClaim(ToUnixTimeSeconds(stampedOn))];
      assert mid[1..][1..] == [];
    }
  }

  // ---------------------------------------------------------------------
  // Resend throttling

  /** `(now - requestedOn) - lifetime`, lifted over a null `requestedOn`. */
  function ResendDelay(now: Ticks, requestedOn: Option<Ticks>, lifetime: int): Option<int> {
    match requestedOn
    case None => None
    case Some(t) => Some((now - t) - lifetime)
  }

  /** The `TooManyRequests` a resend is refused with, if any: the lifted
      comparison `resendDelay < TimeSpan.Zero` is false for a null delay. */
  function Throttle(now: Ticks, requestedOn: Option<Ticks>, lifetime: int): (r: Option<Error>)
    ensures r.Some? <==> requestedOn.Some? && now - requestedOn.value < lifetime
    ensures r.Some? ==> r.value.TooManyRequests? && r.value.tryAgainIn < 0
    ensures r.Some? ==> -r.value.tryAgainIn == lifetime - (now - requestedOn.value)
  {
    var d := ResendDelay(now, requestedOn, lifetime);
    if d.Some? && d.value < 0 then Some(TooManyRequests(d.value)) else None
  }

  // ---------------------------------------------------------------------
  // Sign-in

  /** The request fields that steer `SignIn`: the user the identifier
      resolves to (if any) and whether an OTP and a two-factor code were
      given. */
  datatype SignInRequest = SignInRequest(
    user: Option<UserId>,
    otp: bool,
    twoFactorCode: bool,
    deviceInfo: Option<string>)

  datatype TwoFactorProvider = RecoveryCode | PhoneToken | Authenticator

  /** What each two-factor sign-in would answer for the given code. */
  datatype TwoFactorAttempts = TwoFactorAttempts(
    recoveryCode: SignInOutcome,
    phoneToken: SignInOutcome,
    authenticator: SignInOutcome)

  function OutcomeOf(a: TwoFactorAttempts, p: TwoFactorProvider): SignInOutcome {
    match p
    case RecoveryCode => a.recoveryCode
    case PhoneToken => a.phoneToken
    case Authenticator => a.authenticator
  }

  /** The providers asked, in order, and the outcome of the last one. */
  datatype TwoFactorCheck = TwoFactorCheck(outcome: SignInOutcome, tried: seq<TwoFactorProvider>)

  const TwoFactorOrder: seq<TwoFactorProvider> := [RecoveryCode, PhoneToken, Authenticator]

  /** A two-factor code is tried as a recovery code, then as a phone token,
      then as an authenticator code, stopping at the first success. */
  function CheckTwoFactorCode(a: TwoFactorAttempts): (r: TwoFactorCheck)
    ensures 1 <= |r.tried| <= 3 && r.tried == TwoFactorOrder[..|r.tried|]
    ensures r.outcome == OutcomeOf(a, r.tried[|r.tried| - 1])
    ensures forall i :: 0 <= i < |r.tried| - 1 ==> OutcomeOf(a, r.tried[i]) != Succeeded
    ensures r.outcome == Succeeded <==>
      (a.recoveryCode == Succeeded || a.phoneToken == Succeeded || a.authenticator == Succeeded)
  {
    if a.recoveryCode == Succeeded then TwoFactorCheck(Succeeded, [RecoveryCode])
    else if a.phoneToken == Succeeded then TwoFactorCheck(Succeeded, [RecoveryCode, PhoneToken])
    else TwoFactorCheck(a.authenticator, TwoFactorOrder)
  }

  datatype SignInResponse = SignedIn(tokens: Tokens) | TwoFactorRequired

  /** `SignIn`: `primary` is the first-step (password or OTP) outcome,
      `second` what each two-factor provider answers, `newId` the fresh
      session id. A session is stored only on success. */
  function SignIn(st: Store, settings: Settings, req: SignInRequest, conn: Connection,
                  primary: SignInOutcome, second: TwoFactorAttempts, newId: SessionId, now: Ticks): (r: Reply<SignInResponse>)
    requires newId !in st.db.sessions
    ensures !r.result.Ok? || !r.result.value.SignedIn? ==> r.store == st
    ensures r.result.Ok? && r.result.value.SignedIn? ==>
      && req.user.Some? && req.user.value in st.users
      && r.store.db.sessions.Keys == st.db.sessions.Keys + {newId}
      && r.store.db.sessions[newId].userId == req.user.value
      && r.store.db.sessions[newId].startedOn == now
      && r.store.db.sessions[newId].renewedOn.None?
      && r.result.value.tokens == Tokens(req.user.value, newId, r.result.value.tokens.claims)
  {
    if req.user.None? || req.user.value !in st.users then Reply(Err(Unauthorized), st)
    else
      var u := req.user.value;
      var user := st.users[u];
      var session := CreateUserSession(settings.maxConcurrentPrivilegedSessions, st.db.sessions,
                                       newId, u, req.deviceInfo, conn, now);
      var claims := SessionClaims(user.twoFactorEnabled, newId, session.startedOn, session.privileged);
      if primary == NotAllowed && !user.confirmed then Reply(Err(BadRequest(UserIsNotConfirmed)), st)
      else if primary == LockedOut then
        match user.lockoutEnd
        case None => Reply(Err(InvalidOperation), st)
        case Some(end) => Reply(Err(BadRequest(UserLockedOut(end - now))), st)
      else if primary == RequiresTwoFactor && !req.twoFactorCode then Reply(Ok(TwoFactorRequired), st)
      else
        var outcome := if primary == RequiresTwoFactor then CheckTwoFactorCode(second).outcome else primary;
        if outcome != Succeeded then Reply(Err(Unauthorized), st)
        else
          var user1 := if req.otp then user.(accessFailedCount := 0, otpRequestedOn := None) else user;
          var user2 := user1.(twoFactorTokenRequestedOn := None);
          Reply(Ok(SignedIn(Tokens(u, newId, claims))),
                Store(st.users[u := user2], PutSession(st.db, newId, session)))
  }

  // ---------------------------------------------------------------------
  // Refresh

  datatype RefreshRequest = RefreshRequest(
    refreshToken: Option<RefreshTicket>,
    elevatedAccessToken: bool,
    deviceInfo: Option<string>)

  /** The collaborators' verdicts: the security stamp in the ticket is
      current; the elevated-access token verifies for its purpose; it
      verifies as an authenticator code. */
  datatype RefreshOracles = RefreshOracles(
    securityStampValid: bool,
    elevatedAccessTokenValid: bool,
    authenticatorTokenValid: bool)

  /** `(ExpiresUtc ?? DateTimeOffset.MinValue) < UtcNow`. */
  predicate Expired(t: RefreshTicket, now: Ticks) {
    t.expiresUtc.GetOr(0) < now
  }

  /** The first refresh check as the source writes it. For an undecodable
      token the null-conditional test `refreshTicket?.Principal...is false`
      is false, and the next operand dereferences the null ticket. */
  function CheckRefreshTicketAsWritten(ticket: Option<RefreshTicket>, now: Ticks): (r: Result<RefreshTicket, Error>)
    ensures ticket.None? ==> r == Err(NullReference)
    ensures ticket.Some? ==> (r.Ok? <==> ticket.value.authenticated && !Expired(ticket.value, now))
  {
    match ticket
    case None => Err(NullReference)
    case Some(t) => if !t.authenticated || Expired(t, now) then Err(Unauthorized) else Ok(t)
  }

  /** The first refresh check as evidently intended: an undecodable,
      unauthenticated or expired refresh token is unauthorized. */
  function CheckRefreshTicket(ticket: Option<RefreshTicket>, now: Ticks): (r: Result<RefreshTicket, Error>)
    ensures r.Ok? <==> ticket.Some? && ticket.value.authenticated && !Expired(ticket.value, now)
    ensures r.Ok? ==> r.value == ticket.value
    ensures r.Err? ==> r.error == Unauthorized
  {
    match ticket
    case None => Err(Unauthorized)
    case Some(t) => if !t.authenticated || Expired(t, now) then Err(Unauthorized) else Ok(t)
  }

  /** How far the refresh got: its result, the session it had loaded by
      then, and the changes pending in the unit of work. */
  datatype RefreshAttempt = RefreshAttempt(result: Result<Tokens, Error>, loaded: Option<SessionId>, pending: Store)

  /** The body of the `try` in `Refresh`: each step fails fast. `ticket`
      is the outcome of the first check on the decoded refresh token. */
  function RefreshSteps(st: Store, settings: Settings, ticket: Result<RefreshTicket, Error>, req: RefreshRequest,
                        orc: RefreshOracles, conn: Connection, now: Ticks): (a: RefreshAttempt)
    ensures ticket.Err? ==> a == RefreshAttempt(Err(ticket.error), None, st)
    ensures a.loaded.Some? ==> ticket.Ok? && a.loaded.value == ticket.value.sessionId && a.loaded.value in st.db.sessions
    ensures a.result.Err? && a.result.error == Unauthorized && ticket.Ok? ==> a.loaded.None? && a.pending == st
    ensures a.result.Err? && a.result.error.ReusedRefreshToken? && ticket.Ok? ==> a.loaded.Some? && a.pending == st
    ensures a.result.Ok? ==> a.loaded.Some? && a.loaded.value == a.result.value.sessionId
    ensures a.result.Ok? ==>
      a.loaded.value in a.pending.db.sessions && a.pending.db.sessions[a.loaded.value].renewedOn == Some(now)
    ensures ticket.Ok? && orc.securityStampValid && ticket.value.userId in st.users &&
            ticket.value.sessionId in st.db.sessions && SingleStamp(ticket.value.claims).Some? ==>
      (a.result.Err? && a.result.error.ReusedRefreshToken? <==>
         SingleStamp(ticket.value.claims).value != Stamp(st.db.sessions[ticket.value.sessionId]))
  {
    match ticket
    case Err(e) => RefreshAttempt(Err(e), None, st)
    case Ok(ticket) =>
      if !orc.securityStampValid || ticket.userId !in st.users then RefreshAttempt(Err(Unauthorized), None, st)
      else if ticket.sessionId !in st.db.sessions then RefreshAttempt(Err(Unauthorized), None, st)
      else
        var u := ticket.userId;
        var user := st.users[u];
        var id := ticket.sessionId;
        var session := st.db.sessions[id];
        var loaded := Some(id);
        match SingleStamp(ticket.claims)
        case None => RefreshAttempt(Err(InvalidOperation), loaded, st)
        case Some(tokenStamp) =>
          if Stamp(session) != tokenStamp then
            RefreshAttempt(Err(ReusedRefreshToken(Stamp(session), tokenStamp)), loaded, st)
          else if req.elevatedAccessToken && !(orc.elevatedAccessTokenValid || orc.authenticatorTokenValid) then
            var failed := user.(accessFailedCount := user.accessFailedCount + 1);
            RefreshAttempt(Err(BadRequest(InvalidToken)), loaded, st.(users := st.users[u := failed]))
          else
            var user' := if req.elevatedAccessToken
                         then user.(elevatedAccessTokenRequestedOn := None, accessFailedCount := 0)
                         else user;
            var renewed := session.(renewedOn := Some(now), ip := conn.ip, address := Some(conn.address),
                                    deviceInfo := req.deviceInfo);
            var privileged := IsUserSessionPrivileged(settings.maxConcurrentPrivilegedSessions, renewed, st.db.sessions);
            var claims := SessionClaims(req.elevatedAccessToken, id, now, privileged);
            RefreshAttempt(Ok(Tokens(u, id, claims)), loaded,
                           Store(st.users[u := user'], PutSession(st.db, id, renewed.(privileged := privileged))))
  }

  /** The `catch` and `finally` of `Refresh`: an unauthorized failure
      raised after the session was loaded removes that session; pending
      changes are saved in every case. */
  function Conclude(a: RefreshAttempt): (r: Reply<Tokens>)
    ensures r.result == a.result && r.store.users == a.pending.users
    ensures a.result.Err? && IsUnauthorized(a.result.error) && a.loaded.Some? ==>
      r.store.db == DeleteSession(a.pending.db, a.loaded.value)
    ensures !(a.result.Err? && IsUnauthorized(a.result.error) && a.loaded.Some?) ==> r.store == a.pending
  {
    if a.result.Err? && IsUnauthorized(a.result.error) && a.loaded.Some? then
      Reply(a.result, a.pending.(db := DeleteSession(a.pending.db, a.loaded.value)))
    else
      Reply(a.result, a.pending)
  }

  /** `Refresh` as written: an undecodable refresh token ends in a null
      dereference, which no `catch` turns into an unauthorized answer. */
  function Refresh(st: Store, settings: Settings, req: RefreshRequest, orc: RefreshOracles,
                   conn: Connection, now: Ticks): (r: Reply<Tokens>)
    ensures req.refreshToken.None? ==> r == Reply(Err(NullReference), st)
    ensures r.result.Ok? ==>
      var id := r.result.value.sessionId;
      && id in st.db.sessions && id in r.store.db.sessions
      && r.store.db.sessions[id].renewedOn == Some(now)
      && (st.db.sessions[id].privileged ==> r.store.db.sessions[id].privileged)
    ensures r.result.Err? && r.result.error.ReusedRefreshToken? ==>
      req.refreshToken.Some? && req.refreshToken.value.sessionId in st.db.sessions &&
      r.store.db == DeleteSession(st.db, req.refreshToken.value.sessionId) && r.store.users == st.users
    ensures r.result.Err? && r.result.error == Unauthorized ==> r.store == st
  {
    Conclude(RefreshSteps(st, settings, CheckRefreshTicketAsWritten(req.refreshToken, now), req, orc, conn, now))
  }

  /** `Refresh` with the corrected first check: an undecodable refresh
      token is unauthorized and changes nothing; every decodable token is
      handled exactly as the code does. */
  function RefreshCorrected(st: Store, settings: Settings, req: RefreshRequest, orc: RefreshOracles,
                            conn: Connection, now: Ticks): (r: Reply<Tokens>)
    ensures req.refreshToken.None? ==> r == Reply(Err(Unauthorized), st)
    ensures req.refreshToken.Some? ==> r == Refresh(st, settings, req, orc, conn, now)
  {
    Conclude(RefreshSteps(st, settings, CheckRefreshTicket(req.refreshToken, now), req, orc, conn, now))
  }

  // ---------------------------------------------------------------------
  // One-time codes and two-factor tokens

  /** What a code request sends out: the channels, and the push
      subscriptions the push filter reaches. */
  datatype Dispatch = Dispatch(channels: set<Channel>, pushRecipients: set<SubscriptionId>)

  /** `GenerateAutomaticSignInLink`, for the user state it writes: the OTP
      is (re)issued at `now`. */
  function GenerateAutomaticSignInLink(user: User, now: Ticks): (r: User)
    ensures r.otpRequestedOn == Some(now)
    ensures r.(otpRequestedOn := user.otpRequestedOn) == user
  {
    user.(otpRequestedOn := Some(now))
  }

  /** The channels an OTP goes out on: e-mail and SMS when confirmed, the
      in-app message and push always. */
  function OtpChannels(user: User): (r: set<Channel>)
    ensures EmailChannel in r <==> user.emailConfirmed
    ensures SmsChannel in r <==> user.phoneNumberConfirmed
    ensures SignalRChannel in r && PushChannel in r
  {
    (if user.emailConfirmed then {EmailChannel} else {})
    + (if user.phoneNumberConfirmed then {SmsChannel} else {})
    + {SignalRChannel, PushChannel}
  }

  /** `SendOtp`: throttled on `OtpRequestedOn` against the OTP lifetime. */
  function SendOtp(st: Store, settings: Settings, userId: Option<UserId>, now: Ticks): (r: Reply<Dispatch>)
    ensures r.result.Err? ==> r.store == st
    ensures r.result.Ok? ==>
      && userId.Some? && userId.value in st.users
      && r.store.db == st.db
      && r.store.users == st.users[userId.value := st.users[userId.value].(otpRequestedOn := Some(now))]
  {
    if userId.None? || userId.value !in st.users then Reply(Err(ResourceNotFound), st)
    else
      var user := st.users[userId.value];
      if !user.confirmed then Reply(Err(BadRequest(UserIsNotConfirmed)), st)
      else
        match Throttle(now, user.otpRequestedOn, settings.otpTokenLifetime)
        case Some(e) => Reply(Err(e), st)
        case None =>
          var user' := GenerateAutomaticSignInLink(user, now);
          Reply(Ok(Dispatch(OtpChannels(user), PushRecipients(st.db, userId.value))),
                st.(users := st.users[userId.value := user']))
  }

  /** The channels a two-factor token goes out on: never the one the first
      step came through. */
  function TwoFactorChannels(user: User, first: AuthMethod): (r: set<Channel>)
    ensures EmailChannel in r <==> first != Email && user.emailConfirmed
    ensures SmsChannel in r <==> first != Sms && user.phoneNumberConfirmed
    ensures SignalRChannel in r <==> first != Push
    ensures PushChannel in r <==> first != Push
  {
    (if first != Email && user.emailConfirmed then {EmailChannel} else {})
    + (if first != Sms && user.phoneNumberConfirmed then {SmsChannel} else {})
    + (if first != Push then {SignalRChannel, PushChannel} else {})
  }

  /** `SendTwoFactorToken`: only for a two-factor user whose first step
      answered `RequiresTwoFactor`; throttled on `TwoFactorTokenRequestedOn`.
      `otp` says whether the first step was an OTP, and `otpMethod` over
      which channel that OTP came. */
  function SendTwoFactorToken(st: Store, settings: Settings, userId: Option<UserId>, otp: bool,
                              otpMethod: AuthMethod, primary: SignInOutcome, now: Ticks): (r: Reply<Dispatch>)
    ensures r.result.Err? ==> r.store == st
    ensures r.result.Ok? ==>
      && userId.Some? && userId.value in st.users
      && st.users[userId.value].twoFactorEnabled && primary == RequiresTwoFactor
      && r.store.db == st.db
      && r.store.users == st.users[userId.value := st.users[userId.value].(twoFactorTokenRequestedOn := Some(now))]
  {
    if userId.None? || userId.value !in st.users then Reply(Err(ResourceNotFound), st)
    else
      var user := st.users[userId.value];
      if !user.twoFactorEnabled then Reply(Err(BadRequest(TwoFactorNotEnabled)), st)
      else
        var first := if otp then otpMethod else Password;
        if primary != RequiresTwoFactor then Reply(Err(BadRequest(TwoFactorNotRequired)), st)
        else
          match Throttle(now, user.twoFactorTokenRequestedOn, settings.twoFactorTokenLifetime)
          case Some(e) => Reply(Err(e), st)
          case None =>
            var user' := user.(twoFactorTokenRequestedOn := Some(now));
            var channels := TwoFactorChannels(user, first);
            var recipients := if PushChannel in channels then PushRecipients(st.db, userId.value) else {};
            Reply(Ok(Dispatch(channels, recipients)), st.(users := st.users[userId.value := user']))
  }
}

=== FILE: identity_properties.dfy ===
/** Properties of the sign-in and refresh state machine: the store
    invariant every request keeps (relational constraints and the
    privileged-session cap, in a sequential run), privilege monotonicity,
    reuse detection through the session stamp, outcome routing, and resend
    throttling. */
module IdentityProperties {
  import opened Wrappers
  import opened Time
  import opened Sessions
  import opened Identity

  // ---------------------------------------------------------------------
  // The store invariant

  /** The most privileged sessions one user may hold under `cap`; a cap
      below -1 admits none. */
  function CapBound(cap: int): nat {
    if cap < 0 then 0 else cap
  }

  ghost predicate CapHolds(cap: int, sessions: map<SessionId, UserSession>) {
    cap == Unlimited || forall u :: PrivilegedCount(sessions, u) <= CapBound(cap)
  }

  /** Every session belongs to a stored user (the `UserId` foreign key). */
  ghost predicate SessionsHaveOwners(st: Store) {
    forall id :: id in st.db.sessions ==> st.db.sessions[id].userId in st.users
  }

  ghost predicate Valid(cap: int, st: Store) {
    && WellFormed(st.db)
    && SessionsHaveOwners(st)
    && CapHolds(cap, st.db.sessions)
  }

  lemma SubsetCard<T>(a: set<T>, b: set<T>)
    requires a <= b
    ensures |a| <= |b|
  {
    assert b == a + (b - a);
  }

  /** Storing `s` under `id` changes a user's privileged set only at `id`. */
  lemma PrivilegedAfterPut(sessions: map<SessionId, UserSession>, id: SessionId, s: UserSession, v: UserId)
    ensures PrivilegedSessionsOf(sessions[id := s], v) ==
      (PrivilegedSessionsOf(sessions, v) - {id}) + (if s.privileged && s.userId == v then {id} else {})
  {
  }

  /** Storing a session keeps the cap when it is privileged only by the
      rule: unlimited cap, already privileged under the same owner, or the
      owner below the cap. */
  lemma PutKeepsCap(cap: int, sessions: map<SessionId, UserSession>, id: SessionId, s: UserSession)
    requires CapHolds(cap, sessions)
    requires s.privileged ==>
      || cap == Unlimited
      || (id in sessions && sessions[id].privileged && sessions[id].userId == s.userId)
      || PrivilegedCount(sessions, s.userId) < cap
    ensures CapHolds(cap, sessions[id := s])
  {
    if cap != Unlimited {
      var after := sessions[id := s];
      forall v ensures PrivilegedCount(after, v) <= CapBound(cap) {
        PrivilegedAfterPut(sessions, id, s, v);
        var before := PrivilegedSessionsOf(sessions, v);
        var now := PrivilegedSessionsOf(after, v);
        assert PrivilegedCount(sessions, v) <= CapBound(cap);
        if s.privileged && s.userId == v {
          if id in before {
            assert now == before;
          } else {
            assert now == before + {id};
            assert !(id in sessions && sessions[id].privileged && sessions[id].userId == s.userId);
            assert PrivilegedCount(sessions, v) < cap;
          }
        } else {
          SubsetCard(now, before);
        }
      }
    }
  }

  lemma DeleteKeepsCap(cap: int, db: SessionDb, id: SessionId)
    requires CapHolds(cap, db.sessions)
    ensures CapHolds(cap, DeleteSession(db, id).sessions)
  {
    if cap != Unlimited {
      var after := DeleteSession(db, id).sessions;
      forall v ensures PrivilegedCount(after, v) <= CapBound(cap) {
        SubsetCard(PrivilegedSessionsOf(after, v), PrivilegedSessionsOf(db.sessions, v));
        assert PrivilegedCount(db.sessions, v) <= CapBound(cap);
      }
    }
  }

  lemma DeleteKeepsValid(cap: int, st: Store, id: SessionId)
    requires Valid(cap, st)
    ensures Valid(cap, st.(db := DeleteSession(st.db, id)))
  {
    DeleteSessionPreservesWellFormed(st.db, id);
    DeleteKeepsCap(cap, st.db, id);
  }

  /** A successful sign-in stores exactly the session `CreateUserSession`
      built, and otherwise touches only the signing-in user. */
  lemma SignInStoresCreatedSession(st: Store, settings: Settings, req: SignInRequest, conn: Connection,
                                   primary: SignInOutcome, second: TwoFactorAttempts, newId: SessionId, now: Ticks)
    requires newId !in st.db.sessions
    requires SignIn(st, settings, req, conn, primary, second, newId, now).result.Ok?
    requires SignIn(st, settings, req, conn, primary, second, newId, now).result.value.SignedIn?
    ensures var r := SignIn(st, settings, req, conn, primary, second, newId, now);
      var u := req.user.value;
      var session := CreateUserSession(settings.maxConcurrentPrivilegedSessions, st.db.sessions,
                                       newId, u, req.deviceInfo, conn, now);
      && r.store.db == PutSession(st.db, newId, session)
      && r.store.users.Keys == st.users.Keys
      && (forall v :: v in st.users && v != u ==> r.store.users[v] == st.users[v])
      && r.store.users[u].twoFactorTokenRequestedOn.None?
      && (req.otp ==> r.store.users[u].otpRequestedOn.None? && r.store.users[u].accessFailedCount == 0)
      && r.result.value.tokens.claims ==
           SessionClaims(st.users[u].twoFactorEnabled, newId, now, session.privileged)
  {
  }

  /** Sign-in keeps the store invariant. With a fixed cap the new session
      is counted against the stored ones before it is added, so a user's
      privileged sessions never exceed the cap in a sequential run. */
  lemma SignInPreservesValid(st: Store, settings: Settings, req: SignInRequest, conn: Connection,
                             primary: SignInOutcome, second: TwoFactorAttempts, newId: SessionId, now: Ticks)
    requires newId !in st.db.sessions
    requires Valid(settings.maxConcurrentPrivilegedSessions, st)
    ensures Valid(settings.maxConcurrentPrivilegedSessions,
                  SignIn(st, settings, req, conn, primary, second, newId, now).store)
  {
    var r := SignIn(st, settings, req, conn, primary, second, newId, now);
    if r.result.Ok? && r.result.value.SignedIn? {
      var cap := settings.maxConcurrentPrivilegedSessions;
      var u := req.user.value;
      var session := CreateUserSession(cap, st.db.sessions, newId, u, req.deviceInfo, conn, now);
      SignInStoresCreatedSession(st, settings, req, conn, primary, second, newId, now);
      PutSessionPreservesWellFormed(st.db, newId, session);
      PutKeepsCap(cap, st.db.sessions, newId, session);
    }
  }

  /** The state a successful refresh leaves behind, spelled out. */
  lemma RefreshSuccessStore(st: Store, settings: Settings, req: RefreshRequest, orc: RefreshOracles,
                            conn: Connection, now: Ticks)
    requires Refresh(st, settings, req, orc, conn, now).result.Ok?
    ensures var r := Refresh(st, settings, req, orc, conn, now);
      var t := req.refreshToken.value;
      var id := t.sessionId;
      var old_ := st.db.sessions[id];
      var renewed := old_.(renewedOn := Some(now), ip := conn.ip, address := Some(conn.address),
                           deviceInfo := req.deviceInfo);
      var p := IsUserSessionPrivileged(settings.maxConcurrentPrivilegedSessions, renewed, st.db.sessions);
      && req.refreshToken.Some? && id in st.db.sessions && t.userId in st.users
      && orc.securityStampValid
      && SingleStamp(t.claims) == Some(Stamp(old_))
      && r.result.value == Tokens(t.userId, id, SessionClaims(req.elevatedAccessToken, id, now, p))
      && r.store.db == PutSession(st.db, id, renewed.(privileged := p))
      && r.store.users.Keys == st.users.Keys
  {
  }

  /** Whenever a valid ticket for a stored session of a known user carries
      one stamp claim, the refresh fails as reuse exactly when that stamp
      differs from the session's, and reuse removes the session (with SetNull
      on its subscription) and changes no user. */
  lemma RefreshStampMismatchIsReuse(st: Store, settings: Settings, req: RefreshRequest, orc: RefreshOracles,
                                    conn: Connection, now: Ticks)
    requires CheckRefreshTicketAsWritten(req.refreshToken, now).Ok?
    requires orc.securityStampValid
    requires req.refreshToken.value.userId in st.users && req.refreshToken.value.sessionId in st.db.sessions
    requires SingleStamp(req.refreshToken.value.claims).Some?
    ensures var t := req.refreshToken.value;
      var r := Refresh(st, settings, req, orc, conn, now);
      && (r.result.Err? && r.result.error.ReusedRefreshToken? <==>
            SingleStamp(t.claims).value != Stamp(st.db.sessions[t.sessionId]))
      && (SingleStamp(t.claims).value != Stamp(st.db.sessions[t.sessionId]) ==>
            r.store.db == DeleteSession(st.db, t.sessionId) && r.store.users == st.users)
  {
  }

  /** A refresh that fails with anything but an unauthorized error after
      loading the session leaves the sessions as they were. */
  lemma RefreshFailureStore(st: Store, settings: Settings, req: RefreshRequest, orc: RefreshOracles,
                            conn: Connection, now: Ticks)
    requires Refresh(st, settings, req, orc, conn, now).result.Err?
    ensures var r := Refresh(st, settings, req, orc, conn, now);
      var a := RefreshSteps(st, settings, CheckRefreshTicketAsWritten(req.refreshToken, now), req, orc, conn, now);
      && r.store.users.Keys == st.users.Keys
      && (if IsUnauthorized(r.result.error) && a.loaded.Some?
          then r.store.db == DeleteSession(st.db, a.loaded.value)
          else r.store.db == st.db)
  {
  }

  lemma RefreshPreservesValid(st: Store, settings: Settings, req: RefreshRequest, orc: RefreshOracles,
                              conn: Connection, now: Ticks)
    requires Valid(settings.maxConcurrentPrivilegedSessions, st)
    ensures Valid(settings.maxConcurrentPrivilegedSessions, Refresh(st, settings, req, orc, conn, now).store)
  {
    var cap := settings.maxConcurrentPrivilegedSessions;
    var r := Refresh(st, settings, req, orc, conn, now);
    if r.result.Ok? {
      RefreshSuccessStore(st, settings, req, orc, conn, now);
      var id := req.refreshToken.value.sessionId;
      var old_ := st.db.sessions[id];
      var renewed := old_.(renewedOn := Some(now), ip := conn.ip, address := Some(conn.address),
                           deviceInfo := req.deviceInfo);
      var p := IsUserSessionPrivileged(cap, renewed, st.db.sessions);
      PutSessionPreservesWellFormed(st.db, id, renewed.(privileged := p));
      PutKeepsCap(cap, st.db.sessions, id, renewed.(privileged := p));
    } else {
      RefreshFailureStore(st, settings, req, orc, conn, now);
      var a := RefreshSteps(st, settings, CheckRefreshTicketAsWritten(req.refreshToken, now), req, orc, conn, now);
      if IsUnauthorized(r.result.error) && a.loaded.Some? {
        DeleteKeepsValid(cap, st.(users := r.store.users), a.loaded.value);
      }
    }
  }

  lemma SendOtpPreservesValid(st: Store, settings: Settings, userId: Option<UserId>, now: Ticks)
    requires Valid(settings.maxConcurrentPrivilegedSessions, st)
    ensures Valid(settings.maxConcurrentPrivilegedSessions, SendOtp(st, settings, userId, now).store)
  {
  }

  lemma SendTwoFactorTokenPreservesValid(st: Store, settings: Settings, userId: Option<UserId>, otp: bool,
                                         otpMethod: AuthMethod, primary: SignInOutcome, now: Ticks)
    requires Valid(settings.maxConcurrentPrivilegedSessions, st)
    ensures Valid(settings.maxConcurrentPrivilegedSessions,
                  SendTwoFactorToken(st, settings, userId, otp, otpMethod, primary, now).store)
  {
  }

  // ---------------------------------------------------------------------
  // Sequential runs

  /** One request, with the collaborators' verdicts it will meet. */
  datatype Step =
    | SignInStep(req: SignInRequest, conn: Connection, primary: SignInOutcome, second: TwoFactorAttempts)
    | RefreshStep(refresh: RefreshRequest, orc: RefreshOracles, conn: Connection)
    | SendOtpStep(userId: Option<UserId>)
    | SendTwoFactorTokenStep(userId: Option<UserId>, otp: bool, otpMethod: AuthMethod, primary: SignInOutcome)

  /** A number above every id in `s`. */
  ghost function IdBound(s: set<SessionId>): (r: SessionId)
    ensures forall x :: x in s ==> x < r
    decreases s
  {
    if s == {} then 0
    else
      var x :| x in s;
      var b := IdBound(s - {x});
      assert forall y :: y in s ==> y == x || y in s - {x};
      if b > x then b else x + 1
  }

  /** `Guid.NewGuid()`: some id no stored session has. */
  ghost function FreshSessionId(sessions: map<SessionId, UserSession>): (r: SessionId)
    ensures r !in sessions
  {
    IdBound(sessions.Keys)
  }

  ghost function Apply(st: Store, settings: Settings, step: Step, now: Ticks): Store {
    match step
    case SignInStep(req, conn, primary, second) =>
      SignIn(st, settings, req, conn, primary, second, FreshSessionId(st.db.sessions), now).store
    case RefreshStep(req, orc, conn) => Refresh(st, settings, req, orc, conn, now).store
    case SendOtpStep(u) => SendOtp(st, settings, u, now).store
    case SendTwoFactorTokenStep(u, otp, m, primary) => SendTwoFactorToken(st, settings, u, otp, m, primary, now).store
  }

  /** The requests of `steps` handled one after another, each at its time. */
  ghost function Run(st: Store, settings: Settings, steps: seq<(Step, Ticks)>): Store
    decreases |steps|
  {
    if |steps| == 0 then st
    else Run(Apply(st, settings, steps[0].0, steps[0].1), settings, steps[1..])
  }

  lemma ApplyPreservesValid(st: Store, settings: Settings, step: Step, now: Ticks)
    requires Valid(settings.maxConcurrentPrivilegedSessions, st)
    ensures Valid(settings.maxConcurrentPrivilegedSessions, Apply(st, settings, step, now))
  {
    match step
    case SignInStep(req, conn, primary, second) =>
      SignInPreservesValid(st, settings, req, conn, primary, second, FreshSessionId(st.db.sessions), now);
    case RefreshStep(req, orc, conn) => RefreshPreservesValid(st, settings, req, orc, conn, now);
    case SendOtpStep(u) => SendOtpPreservesValid(st, settings, u, now);
    case SendTwoFactorTokenStep(u, otp, m, primary) =>
      SendTwoFactorTokenPreservesValid(st, settings, u, otp, m, primary, now);
  }

  /** In any sequential run under a fixed cap, every user keeps at most
      `cap` privileged sessions, every session keeps its owner, and the
      push-subscription constraints hold. (Concurrent sign-ins are not
      covered: the source counts and inserts without serializing.) */
  lemma {:induction false} RunPreservesValid(st: Store, settings: Settings, steps: seq<(Step, Ticks)>)
    requires Valid(settings.maxConcurrentPrivilegedSessions, st)
    ensures Valid(settings.maxConcurrentPrivilegedSessions, Run(st, settings, steps))
    decreases |steps|
  {
    if |steps| > 0 {
      ApplyPreservesValid(st, settings, steps[0].0, steps[0].1);
      RunPreservesValid(Apply(st, settings, steps[0].0, steps[0].1), settings, steps[1..]);
    }
  }

  // ---------------------------------------------------------------------
  // Privilege never reverts

  /** No session that survives a step loses its privilege. */
  ghost predicate NeverDemoted(before: map<SessionId, UserSession>, after: map<SessionId, UserSession>) {
    forall id :: id in before && id in after && before[id].privileged ==> after[id].privileged
  }

  /** A refresh never turns a privileged session back into a standard one. */
  lemma RefreshNeverDemotes(st: Store, settings: Settings, req: RefreshRequest, orc: RefreshOracles,
                            conn: Connection, now: Ticks)
    ensures NeverDemoted(st.db.sessions, Refresh(st, settings, req, orc, conn, now).store.db.sessions)
  {
    var r := Refresh(st, settings, req, orc, conn, now);
    if r.result.Ok? {
      RefreshSuccessStore(st, settings, req, orc, conn, now);
    } else {
      RefreshFailureStore(st, settings, req, orc, conn, now);
    }
  }

  lemma ApplyNeverDemotes(st: Store, settings: Settings, step: Step, now: Ticks)
    ensures NeverDemoted(st.db.sessions, Apply(st, settings, step, now).db.sessions)
  {
    match step
    case SignInStep(req, conn, primary, second) =>
    case RefreshStep(req, orc, conn) => RefreshNeverDemotes(st, settings, req, orc, conn, now);
    case SendOtpStep(u) =>
    case SendTwoFactorTokenStep(u, otp, m, primary) =>
  }

  // ---------------------------------------------------------------------
  // The session stamp and reuse detection

  /** The tokens of a successful sign-in carry exactly one stamp, equal to
      the stored session's stamp, which is its start second. */
  lemma SignInTokensCarryStoredStamp(st: Store, settings: Settings, req: SignInRequest, conn: Connection,
                                     primary: SignInOutcome, second: TwoFactorAttempts, newId: SessionId, now: Ticks)
    requires newId !in st.db.sessions
    requires SignIn(st, settings, req, conn, primary, second, newId, now).result.Ok?
    requires SignIn(st, settings, req, conn, primary, second, newId, now).result.value.SignedIn?
    ensures var r := SignIn(st, settings, req, conn, primary, second, newId, now);
      && SingleStamp(r.result.value.tokens.claims) == Some(Stamp(r.store.db.sessions[newId]))
      && Stamp(r.store.db.sessions[newId]) == ToUnixTimeSeconds(now)
      && (PrivilegedSession in r.result.value.tokens.claims <==> r.store.db.sessions[newId].privileged)
  {
    var r := SignIn(st, settings, req, conn, primary, second, newId, now);
    var u := req.user.value;
    var session := CreateUserSession(settings.maxConcurrentPrivilegedSessions, st.db.sessions,
                                     newId, u, req.deviceInfo, conn, now);
    SignInStoresCreatedSession(st, settings, req, conn, primary, second, newId, now);
    SessionClaimsCarryStamp(st.users[u].twoFactorEnabled, newId, now, session.privileged);
  }

  /** The tokens of a successful refresh carry exactly one stamp, equal to
      the renewed session's stamp, which is the renewal second. */
  lemma RefreshTokensCarryStoredStamp(st: Store, settings: Settings, req: RefreshRequest, orc: RefreshOracles,
                                      conn: Connection, now: Ticks)
    requires Refresh(st, settings, req, orc, conn, now).result.Ok?
    ensures var r := Refresh(st, settings, req, orc, conn, now);
      var id := r.result.value.sessionId;
      && SingleStamp(r.result.value.claims) == Some(Stamp(r.store.db.sessions[id]))
      && Stamp(r.store.db.sessions[id]) == ToUnixTimeSeconds(now)
  {
    RefreshSuccessStore(st, settings, req, orc, conn, now);
    var r := Refresh(st, settings, req, orc, conn, now);
    var t := req.refreshToken.value;
    var old_ := st.db.sessions[t.sessionId];
    var renewed := old_.(renewedOn := Some(now), ip := conn.ip, address := Some(conn.address),
                         deviceInfo := req.deviceInfo);
    var p := IsUserSessionPrivileged(settings.maxConcurrentPrivilegedSessions, renewed, st.db.sessions);
    SessionClaimsCarryStamp(req.elevatedAccessToken, t.sessionId, now, p);
  }

  /** A refresh request with no elevated-access token, whose ticket is
      authentic and unexpired, and whose security stamp is current. */
  ghost predicate PlainRefresh(req: RefreshRequest, orc: RefreshOracles, now: Ticks) {
    && CheckRefreshTicket(req.refreshToken, now).Ok?
    && orc.securityStampValid
    && !req.elevatedAccessToken
  }

  /** Issue, then redeem: the refresh token handed out by a successful
      sign-in is accepted by the next refresh while it is unexpired. */
  lemma SignInTicketIsAccepted(st: Store, settings: Settings, req: SignInRequest, conn: Connection,
                               primary: SignInOutcome, second: TwoFactorAttempts, newId: SessionId, now: Ticks,
                               expiresUtc: Ticks, refresh: RefreshRequest, orc: RefreshOracles, conn2: Connection, now2: Ticks)
    requires newId !in st.db.sessions
    requires SignIn(st, settings, req, conn, primary, second, newId, now).result.Ok?
    requires SignIn(st, settings, req, conn, primary, second, newId, now).result.value.SignedIn?
    requires refresh.refreshToken ==
      Some(IssuedTicket(SignIn(st, settings, req, conn, primary, second, newId, now).result.value.tokens, expiresUtc))
    requires now2 <= expiresUtc && orc.securityStampValid && !refresh.elevatedAccessToken
    ensures Refresh(SignIn(st, settings, req, conn, primary, second, newId, now).store,
                    settings, refresh, orc, conn2, now2).result.Ok?
  {
    SignInTokensCarryStoredStamp(st, settings, req, conn, primary, second, newId, now);
    SignInStoresCreatedSession(st, settings, req, conn, primary, second, newId, now);
  }

  /** Replaying a refresh token after it was rotated in a later second
      fails as reuse, and the session is gone afterwards. */
  lemma ReplayAfterRotationIsDetected(st: Store, settings: Settings, req: RefreshRequest, orc: RefreshOracles,
                                      conn: Connection, now: Ticks,
                                      orc2: RefreshOracles, conn2: Connection, now2: Ticks)
    requires Refresh(st, settings, req, orc, conn, now).result.Ok?
    requires now / TicksPerSecond != LastIssuedOn(st.db.sessions[req.refreshToken.value.sessionId]) / TicksPerSecond
    requires CheckRefreshTicket(req.refreshToken, now2).Ok? && orc2.securityStampValid
    ensures var st1 := Refresh(st, settings, req, orc, conn, now).store;
      var r2 := Refresh(st1, settings, req, orc2, conn2, now2);
      && r2.result.Err? && r2.result.error.ReusedRefreshToken?
      && req.refreshToken.value.sessionId !in r2.store.db.sessions
  {
    RefreshSuccessStore(st, settings, req, orc, conn, now);
    var id := req.refreshToken.value.sessionId;
    RenewalMovesStamp(st.db.sessions[id], now);
  }

  /** The stamp has one-second granularity: a token rotated within the
      same second as its predecessor leaves that predecessor redeemable. */
  lemma SameSecondReplayIsNotDetected(st: Store, settings: Settings, req: RefreshRequest, orc: RefreshOracles,
                                      conn: Connection, now: Ticks,
                                      orc2: RefreshOracles, conn2: Connection, now2: Ticks)
    requires Refresh(st, settings, req, orc, conn, now).result.Ok?
    requires now / TicksPerSecond == LastIssuedOn(st.db.sessions[req.refreshToken.value.sessionId]) / TicksPerSecond
    requires PlainRefresh(req, orc2, now2)
    ensures Refresh(Refresh(st, settings, req, orc, conn, now).store, settings, req, orc2, conn2, now2).result.Ok?
  {
    RefreshSuccessStore(st, settings, req, orc, conn, now);
    var id := req.refreshToken.value.sessionId;
    RenewalMovesStamp(st.db.sessions[id], now);
  }

  /** The refresh token a successful refresh hands out is itself accepted
      by the next refresh while unexpired. */
  lemma RenewedTicketIsAccepted(st: Store, settings: Settings, req: RefreshRequest, orc: RefreshOracles,
                                conn: Connection, now: Ticks, expiresUtc: Ticks,
                                next: RefreshRequest, orc2: RefreshOracles, conn2: Connection, now2: Ticks)
    requires Refresh(st, settings, req, orc, conn, now).result.Ok?
    requires next.refreshToken == Some(IssuedTicket(Refresh(st, settings, req, orc, conn, now).result.value, expiresUtc))
    requires now2 <= expiresUtc && orc2.securityStampValid && !next.elevatedAccessToken
    ensures Refresh(Refresh(st, settings, req, orc, conn, now).store, settings, next, orc2, conn2, now2).result.Ok?
  {
    RefreshSuccessStore(st, settings, req, orc, conn, now);
    RefreshTokensCarryStoredStamp(st, settings, req, orc, conn, now);
  }

  /** The three unauthorized failures before the session is loaded (bad or
      expired ticket, stale security stamp, missing session) delete nothing;
      reuse deletes the loaded session and its subscription reference. */
  lemma RefreshUnauthorizedCases(st: Store, settings: Settings, req: RefreshRequest, orc: RefreshOracles,
                                 conn: Connection, now: Ticks)
    ensures var r := Refresh(st, settings, req, orc, conn, now);
      && (req.refreshToken.None? ==> r == Reply(Err(NullReference), st))
      && (req.refreshToken.Some? && CheckRefreshTicket(req.refreshToken, now).Err? ==> r == Reply(Err(Unauthorized), st))
      && (CheckRefreshTicket(req.refreshToken, now).Ok? && !orc.securityStampValid ==> r == Reply(Err(Unauthorized), st))
      && ((CheckRefreshTicket(req.refreshToken, now).Ok? && orc.securityStampValid &&
           req.refreshToken.value.userId in st.users &&
           req.refreshToken.value.sessionId !in st.db.sessions) ==> r == Reply(Err(Unauthorized), st))
      && (r.result.Err? && r.result.error.ReusedRefreshToken? ==>
          SubscriptionsOf(r.store.db.subscriptions, req.refreshToken.value.sessionId) == {})
  {
  }

  /** An elevated-access token on refresh: an invalid one counts a failed
      access and leaves the session untouched; a valid one is consumed,
      resets the failed count and elevates the issued tokens. */
  lemma RefreshElevatedAccess(st: Store, settings: Settings, req: RefreshRequest, orc: RefreshOracles,
                              conn: Connection, now: Ticks)
    requires PlainRefresh(req.(elevatedAccessToken := false), orc, now) && req.elevatedAccessToken
    requires req.refreshToken.value.userId in st.users
    requires req.refreshToken.value.sessionId in st.db.sessions
    requires SingleStamp(req.refreshToken.value.claims) == Some(Stamp(st.db.sessions[req.refreshToken.value.sessionId]))
    ensures var r := Refresh(st, settings, req, orc, conn, now);
      var u := req.refreshToken.value.userId;
      && (!(orc.elevatedAccessTokenValid || orc.authenticatorTokenValid) ==>
            && r.result == Err(BadRequest(InvalidToken))
            && r.store.db == st.db
            && r.store.users == st.users[u := st.users[u].(accessFailedCount := st.users[u].accessFailedCount + 1)])
      && (orc.elevatedAccessTokenValid || orc.authenticatorTokenValid ==>
            && r.result.Ok? && ElevatedSession in r.result.value.claims
            && r.store.users[u].elevatedAccessTokenRequestedOn.None?
            && r.store.users[u].accessFailedCount == 0)
  {
  }

  // ---------------------------------------------------------------------
  // Sign-in routing

  /** `SignIn` routes the first-step outcome in this order: unconfirmed,
      locked out, two-factor challenge, then anything but success is
      unauthorized. A two-factor code succeeds when any provider accepts it. */
  lemma SignInRouting(st: Store, settings: Settings, req: SignInRequest, conn: Connection,
                      primary: SignInOutcome, second: TwoFactorAttempts, newId: SessionId, now: Ticks)
    requires newId !in st.db.sessions
    requires req.user.Some? && req.user.value in st.users
    ensures var r := SignIn(st, settings, req, conn, primary, second, newId, now).result;
      var user := st.users[req.user.value];
      && (primary == NotAllowed && !user.confirmed ==> r == Err(BadRequest(UserIsNotConfirmed)))
      && (primary == NotAllowed && user.confirmed ==> r == Err(Unauthorized))
      && (primary == LockedOut && user.lockoutEnd.Some? ==>
            r == Err(BadRequest(UserLockedOut(user.lockoutEnd.value - now))))
      && (primary == RequiresTwoFactor && !req.twoFactorCode ==> r == Ok(TwoFactorRequired))
      && (primary == RequiresTwoFactor && req.twoFactorCode ==>
            (r.Ok? <==> second.recoveryCode == Succeeded || second.phoneToken == Succeeded ||
                        second.authenticator == Succeeded))
      && (primary == RequiresTwoFactor && req.twoFactorCode && r.Err? ==> r == Err(Unauthorized))
      && (primary == Failed ==> r == Err(Unauthorized))
      && (primary == Succeeded ==> r.Ok? && r.value.SignedIn?)
  {
  }

  /** An unknown identifier is unauthorized and changes nothing. */
  lemma SignInUnknownUser(st: Store, settings: Settings, req: SignInRequest, conn: Connection,
                          primary: SignInOutcome, second: TwoFactorAttempts, newId: SessionId, now: Ticks)
    requires newId !in st.db.sessions
    requires req.user.None? || req.user.value !in st.users
    ensures SignIn(st, settings, req, conn, primary, second, newId, now) == Reply(Err(Unauthorized), st)
  {
  }

  // ---------------------------------------------------------------------
  // Resend throttling

  /** A second OTP request within the lifetime is refused, carrying the
      negated remaining wait, and changes nothing; the first code's
      issue time stays recorded. */
  lemma OtpResendWithinLifetimeRefused(st: Store, settings: Settings, userId: Option<UserId>, now1: Ticks, now2: Ticks)
    requires SendOtp(st, settings, userId, now1).result.Ok?
    requires now1 <= now2 && now2 - now1 < settings.otpTokenLifetime
    ensures var st1 := SendOtp(st, settings, userId, now1).store;
      && SendOtp(st1, settings, userId, now2) ==
           Reply(Err(TooManyRequests(-(settings.otpTokenLifetime - (now2 - now1)))), st1)
      && st1.users[userId.value].otpRequestedOn == Some(now1)
  {
  }

  /** Once the lifetime has passed, the OTP may be requested again. */
  lemma OtpResendAfterLifetimeAllowed(st: Store, settings: Settings, userId: Option<UserId>, now1: Ticks, now2: Ticks)
    requires SendOtp(st, settings, userId, now1).result.Ok?
    requires settings.otpTokenLifetime <= now2 - now1
    ensures SendOtp(SendOtp(st, settings, userId, now1).store, settings, userId, now2).result.Ok?
  {
  }

  /** A second two-factor token request within the lifetime is refused. */
  lemma TwoFactorResendWithinLifetimeRefused(st: Store, settings: Settings, userId: Option<UserId>, otp: bool,
                                             otpMethod: AuthMethod, primary: SignInOutcome, now1: Ticks, now2: Ticks)
    requires SendTwoFactorToken(st, settings, userId, otp, otpMethod, primary, now1).result.Ok?
    requires now1 <= now2 && now2 - now1 < settings.twoFactorTokenLifetime
    ensures var st1 := SendTwoFactorToken(st, settings, userId, otp, otpMethod, primary, now1).store;
      SendTwoFactorToken(st1, settings, userId, otp, otpMethod, primary, now2) ==
        Reply(Err(TooManyRequests(-(settings.twoFactorTokenLifetime - (now2 - now1)))), st1)
  {
  }

  /** A successful sign-in clears the two-factor request time (and for an
      OTP sign-in the OTP request time), so the next code request is never
      throttled by the consumed code. */
  lemma SignInResetsThrottles(st: Store, settings: Settings, req: SignInRequest, conn: Connection,
                              primary: SignInOutcome, second: TwoFactorAttempts, newId: SessionId, now: Ticks,
                              later: Ticks)
    requires newId !in st.db.sessions
    requires SignIn(st, settings, req, conn, primary, second, newId, now).result.Ok?
    requires SignIn(st, settings, req, conn, primary, second, newId, now).result.value.SignedIn?
    ensures var st1 := SignIn(st, settings, req, conn, primary, second, newId, now).store;
      && Throttle(later, st1.users[req.user.value].twoFactorTokenRequestedOn, settings.twoFactorTokenLifetime).None?
      && (req.otp ==> Throttle(later, st1.users[req.user.value].otpRequestedOn, settings.otpTokenLifetime).None?)
  {
    SignInStoresCreatedSession(st, settings, req, conn, primary, second, newId, now);
  }

  // ---------------------------------------------------------------------
  // Channels

  /** After a password first step, a two-factor token goes out on every
      channel an OTP would use; after a code first step, on all of those
      but the code's own channel. */
  lemma TwoFactorChannelsAfterPassword(user: User, m: AuthMethod)
    ensures TwoFactorChannels(user, Password) == OtpChannels(user)
    ensures m == Email ==> TwoFactorChannels(user, m) == OtpChannels(user) - {EmailChannel}
    ensures m == Sms ==> TwoFactorChannels(user, m) == OtpChannels(user) - {SmsChannel}
    ensures m == Push ==> TwoFactorChannels(user, m) == OtpChannels(user) - {SignalRChannel, PushChannel}
  {
  }

  // ---------------------------------------------------------------------
  // The undecodable refresh token

  /** As written, a refresh token the protector cannot decode makes the
      first check dereference null instead of answering unauthorized; the
      corrected check answers unauthorized, and the two agree on every
      decodable token. */
  lemma UndecodableRefreshToken(now: Ticks, t: RefreshTicket)
    ensures CheckRefreshTicketAsWritten(None, now) == Err(NullReference)
    ensures !IsUnauthorized(CheckRefreshTicketAsWritten(None, now).error)
    ensures CheckRefreshTicket(None, now) == Err(Unauthorized)
    ensures CheckRefreshTicketAsWritten(Some(t), now) == CheckRefreshTicket(Some(t), now)
  {
  }

  /** At the level of the endpoint: as written, an undecodable refresh
      token fails with a null dereference, which the `catch` does not turn
      into an unauthorized answer; the corrected endpoint answers
      unauthorized. Neither touches the store. */
  lemma UndecodableRefreshEndpoint(st: Store, settings: Settings, req: RefreshRequest, orc: RefreshOracles,
                                   conn: Connection, now: Ticks)
    requires req.refreshToken.None?
    ensures Refresh(st, settings, req, orc, conn, now) == Reply(Err(NullReference), st)
    ensures !IsUnauthorized(Refresh(st, settings, req, orc, conn, now).result.error)
    ensures RefreshCorrected(st, settings, req, orc, conn, now) == Reply(Err(Unauthorized), st)
  {
  }

  /** The corrected endpoint keeps the store invariant too. */
  lemma {:induction false} RefreshCorrectedPreservesValid(st: Store, settings: Settings, req: RefreshRequest,
                                                          orc: RefreshOracles, conn: Connection, now: Ticks)
    requires Valid(settings.maxConcurrentPrivilegedSessions, st)
    ensures Valid(settings.maxConcurrentPrivilegedSessions, RefreshCorrected(st, settings, req, orc, conn, now).store)
  {
    if req.refreshToken.Some? {
      RefreshPreservesValid(st, settings, req, orc, conn, now);
    }
  }
}

=== FILE: time.dfy ===
/** Instants as `DateTimeOffset` holds them: ticks of 100 ns since
    0001-01-01T00:00:00Z. The clock itself is not modelled; every operation
    that reads `DateTimeOffset.Now` or `UtcNow` takes the instant as a
    parameter. */
module Time {

  type Ticks = nat

  const TicksPerSecond: nat := 10_000_000

  /** Seconds between 0001-01-01 and the Unix epoch 1970-01-01. */
  const UnixEpochSeconds: nat := 62_135_596_800

  /** `DateTimeOffset.ToUnixTimeSeconds`: whole seconds since the Unix
      epoch, the sub-second part dropped. */
  function ToUnixTimeSeconds(t: Ticks): int {
    t / TicksPerSecond - UnixEpochSeconds
  }

  /** Two instants have the same Unix seconds exactly when they lie in the
      same whole second. */
  lemma SameUnixSecondsIffSameSecond(a: Ticks, b: Ticks)
    ensures ToUnixTimeSeconds(a) == ToUnixTimeSeconds(b)
            <==> a / TicksPerSecond == b / TicksPerSecond
  {
  }
}

=== FILE: user_session.dfy ===
/** The `UserSession` entity and the push-subscription relation configured
    next to it: a session belongs to one user; a push subscription may point
    at one session, no two subscriptions at the same one, and deleting a
    session only detaches its subscription (`DeleteBehavior.SetNull`). */
module Sessions {
  import opened Wrappers
  import opened Time

  type SessionId = nat
  type UserId = nat
  type SubscriptionId = nat

  /** One signed-in device. `RenewedOn` stays null until the first refresh. */
  datatype UserSession = UserSession(
    id: SessionId,
    ip: Option<string>,
    deviceInfo: Option<string>,
    address: Option<string>,
    privileged: bool,
    startedOn: Ticks,
    renewedOn: Option<Ticks>,
    userId: UserId)

  /** A browser/device push registration; `UserSessionId` is nullable. */
  datatype PushSubscription = PushSubscription(deviceId: string, userSessionId: Option<SessionId>)

  /** The two tables: sessions by primary key, subscriptions by primary key. */
  datatype SessionDb = SessionDb(
    sessions: map<SessionId, UserSession>,
    subscriptions: map<SubscriptionId, PushSubscription>)

  /** The instant the session stamp is taken from: `RenewedOn ?? StartedOn`. */
  function LastIssuedOn(s: UserSession): Ticks {
    s.renewedOn.GetOr(s.startedOn)
  }

  /** The session stamp: whole Unix seconds of `RenewedOn ?? StartedOn`,
      that is, the Unix second that instant falls in.
      It is written into every token issued for the session and compared on
      refresh to detect reuse. */
  function Stamp(s: UserSession): (r: int)
    ensures var t := s.renewedOn.GetOr(s.startedOn);
      (r + UnixEpochSeconds) * TicksPerSecond <= t < (r + UnixEpochSeconds + 1) * TicksPerSecond
  {
    ToUnixTimeSeconds(LastIssuedOn(s))
  }

  /** Every stored session sits under its own id. */
  ghost predicate KeysMatch(sessions: map<SessionId, UserSession>) {
    forall id :: id in sessions ==> sessions[id].id == id
  }

  /** Foreign key: a non-null `UserSessionId` names a stored session. */
  ghost predicate SubscriptionsReferenceSessions(db: SessionDb) {
    forall k :: k in db.subscriptions && db.subscriptions[k].userSessionId.Some? ==>
      db.subscriptions[k].userSessionId.value in db.sessions
  }

  /** The filtered unique index: no two subscriptions share a non-null
      `UserSessionId`. */
  ghost predicate UniqueSessionIndex(subs: map<SubscriptionId, PushSubscription>) {
    forall a, b :: a in subs && b in subs && a != b && subs[a].userSessionId.Some? ==>
      subs[a].userSessionId != subs[b].userSessionId
  }

  ghost predicate WellFormed(db: SessionDb) {
    && KeysMatch(db.sessions)
    && SubscriptionsReferenceSessions(db)
    && UniqueSessionIndex(db.subscriptions)
  }

  /** The subscriptions that reference session `id`. */
  function SubscriptionsOf(subs: map<SubscriptionId, PushSubscription>, id: SessionId): set<SubscriptionId> {
    set k | k in subs && subs[k].userSessionId == Some(id)
  }

  /** Removing a session row. The relationship is configured with
      `DeleteBehavior.SetNull`: a subscription that pointed at the session
      loses its reference and is otherwise left as it was. */
  function DeleteSession(db: SessionDb, id: SessionId): (r: SessionDb)
    ensures r.sessions.Keys == db.sessions.Keys - {id}
    ensures forall k :: k in r.sessions ==> r.sessions[k] == db.sessions[k]
    ensures r.subscriptions.Keys == db.subscriptions.Keys
    ensures SubscriptionsOf(r.subscriptions, id) == {}
    ensures forall k :: k in r.subscriptions ==>
      r.subscriptions[k].deviceId == db.subscriptions[k].deviceId
    ensures forall k :: k in r.subscriptions && db.subscriptions[k].userSessionId != Some(id) ==>
      r.subscriptions[k] == db.subscriptions[k]
    ensures forall k :: k in r.subscriptions && db.subscriptions[k].userSessionId == Some(id) ==>
      r.subscriptions[k] == db.subscriptions[k].(userSessionId := None)
  {
    var subs := map k | k in db.subscriptions ::
      if db.subscriptions[k].userSessionId == Some(id)
      then db.subscriptions[k].(userSessionId := None)
      else db.subscriptions[k];
    SessionDb(db.sessions - {id}, subs)
  }

  /** Deleting a session keeps the relational constraints. */
  lemma DeleteSessionPreservesWellFormed(db: SessionDb, id: SessionId)
    requires WellFormed(db)
    ensures WellFormed(DeleteSession(db, id))
  {
    var r := DeleteSession(db, id);
    forall a, b | a in r.subscriptions && b in r.subscriptions && a != b && r.subscriptions[a].userSessionId.Some?
      ensures r.subscriptions[a].userSessionId != r.subscriptions[b].userSessionId
    {
      assert db.subscriptions[a].userSessionId == r.subscriptions[a].userSessionId;
    }
  }

  /** Since the unique index allows one subscription per session, deleting
      a session detaches at most one subscription. */
  lemma DeleteSessionDetachesAtMostOne(db: SessionDb, id: SessionId)
    requires UniqueSessionIndex(db.subscriptions)
    ensures |SubscriptionsOf(db.subscriptions, id)| <= 1
  {
    var s := SubscriptionsOf(db.subscriptions, id);
    if |s| > 1 {
      TwoDistinct(s);
      assert false;
    }
  }

  lemma TwoDistinct<T>(s: set<T>)
    requires |s| > 1
    ensures exists a, b :: a in s && b in s && a != b
  {
    var a :| a in s;
    assert |s - {a}| == |s| - 1;
    var b :| b in s - {a};
  }

  /** Why a write to the subscription table is refused by the database. */
  datatype DbError = UniqueIndexViolation | ForeignKeyViolation

  /** Inserting or updating a subscription row: the foreign key and the
      filtered unique index decide whether the database accepts it. */
  function SaveSubscription(db: SessionDb, k: SubscriptionId, sub: PushSubscription): (r: Result<SessionDb, DbError>)
    ensures r.Err? <==>
      (sub.userSessionId.Some? &&
       (sub.userSessionId.value !in db.sessions ||
        exists j :: j in db.subscriptions && j != k && db.subscriptions[j].userSessionId == sub.userSessionId))
    ensures r.Ok? ==> r.value.sessions == db.sessions && r.value.subscriptions == db.subscriptions[k := sub]
  {
    match sub.userSessionId
    case None => Ok(db.(subscriptions := db.subscriptions[k := sub]))
    case Some(sid) =>
      if sid !in db.sessions then Err(ForeignKeyViolation)
      else if exists j :: j in db.subscriptions && j != k && db.subscriptions[j].userSessionId == Some(sid)
      then Err(UniqueIndexViolation)
      else Ok(db.(subscriptions := db.subscriptions[k := sub]))
  }

  /** An accepted subscription write keeps the relational constraints. */
  lemma SaveSubscriptionPreservesWellFormed(db: SessionDb, k: SubscriptionId, sub: PushSubscription)
    requires WellFormed(db)
    requires SaveSubscription(db, k, sub).Ok?
    ensures WellFormed(SaveSubscription(db, k, sub).value)
  {
  }

  /** Storing a session row under key `id` (insert or update). */
  function PutSession(db: SessionDb, id: SessionId, s: UserSession): (r: SessionDb)
    ensures id in r.sessions && r.sessions[id] == s
    ensures r.sessions.Keys == db.sessions.Keys + {id}
    ensures forall k :: k in db.sessions && k != id ==> r.sessions[k] == db.sessions[k]
    ensures r.subscriptions == db.subscriptions
  {
    db.(sessions := db.sessions[id := s])
  }

  lemma PutSessionPreservesWellFormed(db: SessionDb, id: SessionId, s: UserSession)
    requires WellFormed(db) && s.id == id
    ensures WellFormed(PutSession(db, id, s))
  {
  }

  /** The subscriptions reached by the push filter
      `s => s.UserSession!.UserId == user.Id`: detached subscriptions never
      match, since the navigation joins on the session row. */
  function PushRecipients(db: SessionDb, u: UserId): (r: set<SubscriptionId>)
    ensures forall k :: k in r <==>
      (k in db.subscriptions && db.subscriptions[k].userSessionId.Some? &&
       db.subscriptions[k].userSessionId.value in db.sessions &&
       db.sessions[db.subscriptions[k].userSessionId.value].userId == u)
  {
    set k | k in db.subscriptions && db.subscriptions[k].userSessionId.Some? &&
            db.subscriptions[k].userSessionId.value in db.sessions &&
            db.sessions[db.subscriptions[k].userSessionId.value].userId == u
  }

  /** Once a session is deleted, the subscription that pointed at it no
      longer receives the user's pushes, though the row itself survives. */
  lemma DeletedSessionGetsNoPush(db: SessionDb, id: SessionId, k: SubscriptionId, u: UserId)
    requires k in db.subscriptions && db.subscriptions[k].userSessionId == Some(id)
    ensures k in DeleteSession(db, id).subscriptions
    ensures k !in PushRecipients(DeleteSession(db, id), u)
  {
  }

  /** A session that was never renewed takes its stamp from `StartedOn`; a
      renewal at `now` moves the stamp to `now`'s second, and changes it
      exactly when `now` falls in a different second from the last issue. */
  lemma RenewalMovesStamp(s: UserSession, now: Ticks)
    ensures s.renewedOn.None? ==> Stamp(s) == ToUnixTimeSeconds(s.startedOn)
    ensures Stamp(s.(renewedOn := Some(now))) == ToUnixTimeSeconds(now)
    ensures Stamp(s.(renewedOn := Some(now))) != Stamp(s) <==>
      now / TicksPerSecond != LastIssuedOn(s) / TicksPerSecond
  {
    SameUnixSecondsIffSameSecond(now, LastIssuedOn(s));
  }
}

=== FILE: wrappers.dfy ===
/** Option and Result datatypes: the model's rendering of C# nullable values
    and of operations that either return a value or throw. */
module Wrappers {

  /** A nullable value (`T?` in the source). */
  datatype Option<+T> = None | Some(value: T) {

    /** The `??` operator: the value if present, else the fallback. */
    function GetOr(default: T): T {
      match this
      case Some(v) => v
      case None => default
    }
  }

  /** The outcome of an operation that may throw: a value or the exception. */
  datatype Result<+T, +E> = Ok(value: T) | Err(error: E)
}
